=== FILE: README.md ===
# ML Kit camera screens: a Dafny model

This project models the logic of three camera screens in an Android app built on
CameraX and ML Kit. It also models the two overlay views those screens draw on.

- **Barcode screen** (`BarcodeDetection`). The first raw value the scanner decodes
  becomes one of three actions: a product search, opening a link, or a generic
  search. The analyzer is gated by `scanned` and `lastScannedData`, and a handler
  callback reopens the gate 2000 ms after each accepted scan.
- **Text screen** (`TextDetection`). One captured photo is recognised. The status
  line shows the result, every recognised word goes to the `TextOverlay`, and the
  frame is closed.
- **Face screen** (`FaceDetection`). A freeze button decides whether frames reach
  the face detector. A camera-facing flag is kept in step with the `GraphicOverlay`.
- **`TextOverlay`**. The picture is letterboxed into the view. Each word's box is
  mapped through the frame rotation, the scale and the translation, then truncated
  to whole pixels.
- **`GraphicOverlay` and `FaceGraphic`**. The overlay holds one graphic per face.
  Each graphic draws a face as canvas calls in view coordinates: a box, landmark
  dots, a smile arc, eye ellipses and probability labels. The x axis is mirrored
  for camera facing 1.

Each stateful class of the app is a Dafny `class` holding the state its handlers
read and write, plus logs of frames, acceptances and pending resets. Its event
handlers are methods with `modifies` clauses. Pure computations are functions:
URL rules, the letterbox fit, the coordinate mapping, and the drawing of one face.
A drawing is a `seq<Primitive>`, one element per canvas call. Callbacks and timers
are explicit events:

- a frame arrives;
- the detector succeeds or fails on a frame;
- the clock advances;
- the posted reset fires;
- the screen is destroyed.

Each screen keeps a log of closed frames. Its invariant says no frame is closed
twice, and every handler that finishes a frame appends it exactly once.

Module layout, one file each:

- `Nullable`: the `Option` type that stands for Java `null`.
- `Strings`: ASCII lower-casing and `String.trim`.
- `Vision`: ML Kit values and canvas primitives.
- `BarcodeRules` and `BarcodeScreen`: the barcode screen.
- `OverlayGraphic`: `GraphicOverlay.Graphic`'s coordinate helpers.
- `FaceGraphic`: the standalone `FaceGraphic.java`.
- `GraphicOverlayView`: `GraphicOverlay` and its inner `FaceGraphic`.
- `TextOverlayView`: `TextOverlay`.
- `TextScreen`: `TextDetection`.
- `FaceScreen`: `FaceDetection`.

Points where the code behaves in a way a reader might not expect:

- In `BarcodeDetection` a success listener that runs after `onDestroy` still acts.
  It can accept a value and post a new reset after `onDestroy` removed the pending
  ones. `BarcodeDetection.OnScanSuccess` does not require `!destroyed`.
- In `BarcodeDetection` the `InputImage` is built outside any `try`. When that
  throws, no listener is attached and the frame is never closed. The model records
  such a frame in `leaked`. The face and text screens catch the exception and close
  the frame.
- CameraX's `ImageAnalysis` with `STRATEGY_KEEP_ONLY_LATEST` delivers the next frame
  only after the previous one is closed. That strategy is set in `FaceDetection` and
  is the default in `BarcodeDetection`, so each screen has at most one frame in
  flight. The model does not rely on this: `inFlight` and `detecting` are a set and
  a map, which is a sound over-approximation. Every property proved about them
  holds for any number of frames in flight.
- In `TextOverlay`, the letterbox fits the upright picture, whose width and height
  are swapped for 90 and 270 degrees, and the per-rotation steps of `mapX` and
  `mapY` reflect within that same upright picture. At 90 degrees the picture is
  mirrored left to right and at 270 degrees top to bottom
  (`TextOverlayView.QuarterTurnsMirror`). For every rotation, a point of the upright
  picture lands inside the view (`TextOverlayView.MappedPointsStayInPicture`,
  `TextOverlayView.MapRectStaysInView`).
- `GraphicOverlay` mirrors when `cameraFacing == 1`, which CameraX calls
  `LENS_FACING_BACK`. `FaceDetection` starts with `LENS_FACING_FRONT` (0), so the
  face screen starts unmirrored (`FaceScreen.FaceDetection.FrontLensDrawsUnmirrored`).

## Model

Source paths are under `app/src/main/java/com/example/a22f3272smd_project/`, written in full.

| member | source | states |
|---|---|---|
| BarcodeRules.AllAsciiDigits | app/src/main/java/com/example/a22f3272smd_project/BarcodeDetection.java:171-174 | true exactly when every character is an ASCII digit |
| BarcodeRules.IsProductBarcode | app/src/main/java/com/example/a22f3272smd_project/BarcodeDetection.java:171-174 | `\d{8,14}` matches the whole string exactly when it is 8 to 14 ASCII digits |
| BarcodeRules.MatchesDomainPatternIsRegex | app/src/main/java/com/example/a22f3272smd_project/BarcodeDetection.java:193 | the scanning matcher accepts exactly the strings that `.*\.[a-z]{2,}(/.*)?` matches in full, with `.` excluding line terminators |
| BarcodeRules.ParseUrl | app/src/main/java/com/example/a22f3272smd_project/BarcodeDetection.java:182-198 | every non-null result starts with `http://` or `https://`, ignoring case |
| BarcodeRules.ParseUrlCases | app/src/main/java/com/example/a22f3272smd_project/BarcodeDetection.java:182-198 | a link with a scheme is returned unchanged; otherwise a host-like input (`www.`, `.com`, `.org`, `.net`, or the domain regex) becomes `https://` + input; null exactly when neither rule applies |
| BarcodeRules.ParseUrlIsIdempotent | app/src/main/java/com/example/a22f3272smd_project/BarcodeDetection.java:184-186 | parsing a parsed link again returns it unchanged |
| BarcodeRules.OpenDetectedContent | app/src/main/java/com/example/a22f3272smd_project/BarcodeDetection.java:152-180 | a product search happens exactly for product codes, with URL `https://www.google.com/search?q=` + data and no encoding; a link is opened exactly when the data is no product code and `parseUrl` is non-null, and the URL opened is `parseUrl`'s result; a generic search happens exactly when the data is no product code and `parseUrl` is null, with URL the search prefix + `encode(data)`; every URL has a web scheme |
| BarcodeRules.ProductBarcodeIsNotUrl | app/src/main/java/com/example/a22f3272smd_project/BarcodeDetection.java:152-157 | a product code is never taken for a link, so checking product codes first changes only whether digits are encoded |
| BarcodeRules.CopyText | app/src/main/java/com/example/a22f3272smd_project/BarcodeDetection.java:58-67 | copies the trimmed text when it is non-empty and not the placeholder; otherwise reports nothing to copy |
| BarcodeRules.OpenLink | app/src/main/java/com/example/a22f3272smd_project/BarcodeDetection.java:70-79 | refuses exactly when copying would, and otherwise acts on the trimmed text as `openDetectedContent` |
| Strings.ToLower | app/src/main/java/com/example/a22f3272smd_project/BarcodeDetection.java:184-192 | same length, each character lower-cased (ASCII) |
| Strings.Trim | app/src/main/java/com/example/a22f3272smd_project/BarcodeDetection.java:59-71 | Java's `String.trim`, called at lines 59 and 71: the result is a contiguous slice of the input with only characters at most U+0020 removed before and after it; empty exactly when every character is at most U+0020; otherwise it starts and ends with a kept character |
| Strings.TrimIsIdempotent | app/src/main/java/com/example/a22f3272smd_project/BarcodeDetection.java:59-71 | `String.trim` (called at lines 59 and 71) applied twice equals applying it once |
| BarcodeScreen.AcceptedValue | app/src/main/java/com/example/a22f3272smd_project/BarcodeDetection.java:108-113 | accepts the first raw value exactly when the list is non-empty, that value is non-null and it differs from `lastScannedData` |
| BarcodeScreen.BarcodeDetection.constructor | app/src/main/java/com/example/a22f3272smd_project/BarcodeDetection.java:44-46 | not scanned, no last value, no pending reset, no frames; the result view shows the text the layout gives it |
| BarcodeScreen.BarcodeDetection.OnFrame | app/src/main/java/com/example/a22f3272smd_project/BarcodeDetection.java:100-104 | while `scanned` is true the frame is closed; otherwise the scanner is invoked exactly when the `InputImage` converts, and a failed conversion leaves the frame neither scanned nor closed (leaked); the invariant holds |
| BarcodeScreen.BarcodeDetection.OnScanSuccess | app/src/main/java/com/example/a22f3272smd_project/BarcodeDetection.java:107-122 | on acceptance sets `scanned`, records and shows the value, and posts a reset due 2000 ms later; otherwise the state is unchanged; the frame is closed once |
| BarcodeScreen.BarcodeDetection.OnScanFailure | app/src/main/java/com/example/a22f3272smd_project/BarcodeDetection.java:123-126 | only closes the frame, once |
| BarcodeScreen.BarcodeDetection.AdvanceClock | app/src/main/java/com/example/a22f3272smd_project/BarcodeDetection.java:116-118 | time passes; nothing else changes |
| BarcodeScreen.BarcodeDetection.FireReset | app/src/main/java/com/example/a22f3272smd_project/BarcodeDetection.java:116-118 | the earliest due reset clears `scanned` and leaves `lastScannedData` alone |
| BarcodeScreen.BarcodeDetection.OnDestroy | app/src/main/java/com/example/a22f3272smd_project/BarcodeDetection.java:228-233 | every pending reset is dropped |
| BarcodeScreen.BarcodeDetection.OnCopyClicked | app/src/main/java/com/example/a22f3272smd_project/BarcodeDetection.java:58-68 | what is copied is never empty or the placeholder |
| BarcodeScreen.BarcodeDetection.OnOpenLinkClicked | app/src/main/java/com/example/a22f3272smd_project/BarcodeDetection.java:70-79 | any URL opened has a web scheme |
| BarcodeScreen.AcceptedValuesChange | app/src/main/java/com/example/a22f3272smd_project/BarcodeDetection.java:46 | on a screen in a valid state, a value accepted twice had a different value accepted in between, whatever the elapsed time |
| OverlayGraphic.MirroredAndPlainSumToWidth | app/src/main/java/com/example/a22f3272smd_project/GraphicOverlay.java:40-47 | the mirrored and unmirrored `translateX` of a point sum to the view width |
| OverlayGraphic.TranslateXOrder | app/src/main/java/com/example/a22f3272smd_project/GraphicOverlay.java:40-47 | with a positive scale, mirroring reverses left-right order and no mirroring keeps it |
| OverlayGraphic.OnlyTranslateXDependsOnFacing | app/src/main/java/com/example/a22f3272smd_project/GraphicOverlay.java:49-59 | `translateY`, `scaleX()` and `scaleY()` ignore the camera facing |
| OverlayGraphic.FrontLensIsNotMirrored | app/src/main/java/com/example/a22f3272smd_project/GraphicOverlay.java:25-47 | facing 0 (CameraX front) is drawn unmirrored; facing 1 (CameraX back) is mirrored |
| FaceGraphic.LandmarkDotsArePresentLandmarks | app/src/main/java/com/example/a22f3272smd_project/FaceGraphic.java:186-196 | exactly the present landmarks among those visited get a dot, each at its translated position |
| FaceGraphic.DrawDotsPresentLandmarks | app/src/main/java/com/example/a22f3272smd_project/FaceGraphic.java:88-98 | every landmark the face has is dotted, and every landmark dot belongs to a present landmark |
| FaceGraphic.DrawStartsWithBoxAndCentre | app/src/main/java/com/example/a22f3272smd_project/FaceGraphic.java:69-86 | a null face draws nothing; otherwise the first call is the box with translated corners, and the second is the centre dot at the box's midpoint |
| FaceGraphic.DrawCounts | app/src/main/java/com/example/a22f3272smd_project/FaceGraphic.java:104-183 | one smile arc exactly when the smiling probability is known; one eye ellipse per eye with both a probability and a landmark; one label for each of these |
| FaceGraphic.SmileCounts | app/src/main/java/com/example/a22f3272smd_project/FaceGraphic.java:110-139 | the smile part holds one arc and one label exactly when the smiling probability is known, and no ellipse |
| FaceGraphic.EyeCounts | app/src/main/java/com/example/a22f3272smd_project/FaceGraphic.java:142-183 | an eye part holds one ellipse and one label exactly when the eye has both a probability and a landmark, and no arc |
| FaceGraphic.LabelsStackBelowBox | app/src/main/java/com/example/a22f3272smd_project/FaceGraphic.java:105-167 | every label is at the box's left edge, 40, 80 or 120 below the bottom for smile, left eye and right eye, and shows that probability |
| FaceGraphic.SmileArcGeometry | app/src/main/java/com/example/a22f3272smd_project/FaceGraphic.java:110-139 | the arc is the 0-180 degree half of an ellipse centred on the mouth centre, 0.7 of the box width wide and 0.4 × that width × probability high |
| FaceGraphic.MouthCenterPlacement | app/src/main/java/com/example/a22f3272smd_project/FaceGraphic.java:114-131 | with both mouth corners the centre lies between them; otherwise it is on the box's centre column and inside the box |
| FaceGraphic.Openness | app/src/main/java/com/example/a22f3272smd_project/FaceGraphic.java:153 | `max(0.1, prob)` is at least 0.1 and at least the probability, and equals one of them |
| FaceGraphic.EyeOvalGeometry | app/src/main/java/com/example/a22f3272smd_project/FaceGraphic.java:142-183 | the ellipse is centred on the translated eye landmark, with half-width `scaleX(15)` and half-height `scaleX(15)` × openness |
| GraphicOverlayView.InnerDrawCounts | app/src/main/java/com/example/a22f3272smd_project/GraphicOverlay.java:147-206 | the inner graphic draws one box, no centre dot and no ellipse; one arc exactly when smiling is known; one label per known probability, with no landmark needed |
| GraphicOverlayView.InnerSmileCounts | app/src/main/java/com/example/a22f3272smd_project/GraphicOverlay.java:173-191 | the inner smile part holds one label and one arc exactly when smiling is known, and no box, dot or ellipse |
| GraphicOverlayView.InnerEyeLabelCounts | app/src/main/java/com/example/a22f3272smd_project/GraphicOverlay.java:194-205 | an inner eye label is a single text, present exactly when that eye's probability is known, with no landmark needed |
| GraphicOverlayView.InnerLabelsStackBelowBox | app/src/main/java/com/example/a22f3272smd_project/GraphicOverlay.java:173-205 | every inner label is at the box's left edge, 40, 80 or 120 below the bottom, showing that probability |
| GraphicOverlayView.InnerSmileArcGeometry | app/src/main/java/com/example/a22f3272smd_project/GraphicOverlay.java:179-191 | the inner arc is centred at ((left+right)/2, bottom-30), 0.8 of the box width wide and 0.2 × that width × probability high |
| GraphicOverlayView.InnerAndStandaloneShareBoxAndDots | app/src/main/java/com/example/a22f3272smd_project/GraphicOverlay.java:148-171 | the inner and the standalone graphic draw the same box and the same landmark dots |
| GraphicOverlayView.FaceGraphics | app/src/main/java/com/example/a22f3272smd_project/GraphicOverlay.java:85-88 | one inner face graphic per face, in face order |
| GraphicOverlayView.SceneAppend | app/src/main/java/com/example/a22f3272smd_project/GraphicOverlay.java:93-99 | graphics are painted in list order: the scene of a longer list extends that of its prefix |
| GraphicOverlayView.PaintAppend | app/src/main/java/com/example/a22f3272smd_project/GraphicOverlay.java:93-99 | painting a concatenated list paints the first list, then the second, whatever each graphic draws |
| GraphicOverlayView.OneBoxPerFace | app/src/main/java/com/example/a22f3272smd_project/GraphicOverlay.java:75-99 | the scene for a face list has exactly one box per face |
| GraphicOverlayView.GraphicOverlay.constructor | app/src/main/java/com/example/a22f3272smd_project/GraphicOverlay.java:19-25 | no graphics, zero scales, facing 1 |
| GraphicOverlayView.GraphicOverlay.SetCameraFacing | app/src/main/java/com/example/a22f3272smd_project/GraphicOverlay.java:27-29 | sets the facing only |
| GraphicOverlayView.GraphicOverlay.Clear | app/src/main/java/com/example/a22f3272smd_project/GraphicOverlay.java:66-69 | empties the graphics only |
| GraphicOverlayView.GraphicOverlay.Add | app/src/main/java/com/example/a22f3272smd_project/GraphicOverlay.java:71-73 | appends at the end |
| GraphicOverlayView.GraphicOverlay.SetFaces | app/src/main/java/com/example/a22f3272smd_project/GraphicOverlay.java:75-91 | drops the old graphics and leaves one per face in order; scales are view size / image size; the scene then has one box per face |
| GraphicOverlayView.GraphicOverlay.OnDraw | app/src/main/java/com/example/a22f3272smd_project/GraphicOverlay.java:93-99 | paints every graphic's drawing in list order |
| TextOverlayView.RotatedSize | app/src/main/java/com/example/a22f3272smd_project/TextOverlay.java:112-114 | width and height are swapped exactly for rotation 90 or 270 |
| TextOverlayView.Letterbox | app/src/main/java/com/example/a22f3272smd_project/TextOverlay.java:102-132 | no transform exactly when a view or image size is zero; otherwise the two scales are equal |
| TextOverlayView.LetterboxFits | app/src/main/java/com/example/a22f3272smd_project/TextOverlay.java:116-132 | for positive sizes: positive uniform scale; the scaled picture fits the view and fills one axis; both translations are non-negative and at least one is 0; the picture is centred, `2t + r·s = view` on both axes |
| TextOverlayView.FitFits | app/src/main/java/com/example/a22f3272smd_project/TextOverlay.java:116-132 | for positive upright sizes the chosen scale fits both axes and fills one, the margins are equal, non-negative and one of them is 0 |
| TextOverlayView.RotationSteps | app/src/main/java/com/example/a22f3272smd_project/TextOverlay.java:141-186 | the rotation step of `mapX`/`mapY` per rotation: 90 gives `(ih-x, y)`, 180 gives `(iw-x, ih-y)`, 270 gives `(x, iw-y)`, any other the identity; each step undoes itself |
| TextOverlayView.Truncate | app/src/main/java/com/example/a22f3272smd_project/TextOverlay.java:195-198 | the `(int)` cast rounds toward zero: at most one unit away, on the side of zero |
| TextOverlayView.MapRect | app/src/main/java/com/example/a22f3272smd_project/TextOverlay.java:191-200 | null exactly for a null box |
| TextOverlayView.MapRectStaysInView | app/src/main/java/com/example/a22f3272smd_project/TextOverlay.java:141-200 | for every rotation, under a transform that centres the upright picture, a box inside that picture maps to a rectangle whose four truncated edges lie in [0, view width] x [0, view height] |
| TextOverlayView.MappedPointsStayInPicture | app/src/main/java/com/example/a22f3272smd_project/TextOverlay.java:141-186 | for every rotation, under a transform that centres the upright picture, every point of that picture maps into the picture's place in the view, and so into the view |
| TextOverlayView.RotationKeepsPicture | app/src/main/java/com/example/a22f3272smd_project/TextOverlay.java:141-186 | each rotation step of `mapX`/`mapY` maps the upright picture `[0, rw] x [0, rh]` onto itself |
| TextOverlayView.QuarterTurnsMirror | app/src/main/java/com/example/a22f3272smd_project/TextOverlay.java:141-186 | under a positive scale, rotation 90 reverses the horizontal order of points and keeps the vertical; 270 reverses the vertical and keeps the horizontal; 0 keeps both |
| TextOverlayView.ElementSceneDrawsBoxedWords | app/src/main/java/com/example/a22f3272smd_project/TextOverlay.java:215-228 | every word with a box gets its mapped rectangle and its text at (left, top - 5) |
| TextOverlayView.ElementSceneHasOnlyWords | app/src/main/java/com/example/a22f3272smd_project/TextOverlay.java:215-228 | a word without a box draws nothing, and every call belongs to some word |
| TextOverlayView.ElementSceneAppend | app/src/main/java/com/example/a22f3272smd_project/TextOverlay.java:215-228 | words are drawn in list order |
| TextOverlayView.Recalculated | app/src/main/java/com/example/a22f3272smd_project/TextOverlay.java:106-109 | a recalculation keeps scales uniform |
| TextOverlayView.TextOverlay.constructor | app/src/main/java/com/example/a22f3272smd_project/TextOverlay.java:20-48 | no words, zero sizes, zero transform |
| TextOverlayView.TextOverlay.CalculateTransformationMatrix | app/src/main/java/com/example/a22f3272smd_project/TextOverlay.java:102-136 | the transform becomes the letterbox, or is left unchanged when a size is zero; scales stay equal |
| TextOverlayView.TextOverlay.SetElementsWithImage | app/src/main/java/com/example/a22f3272smd_project/TextOverlay.java:72-83 | stores the words, image size and rotation, and always recalculates |
| TextOverlayView.TextOverlay.SetElements | app/src/main/java/com/example/a22f3272smd_project/TextOverlay.java:88-97 | stores the words, and recalculates only when the stored image size is positive |
| TextOverlayView.TextOverlay.OnSizeChanged | app/src/main/java/com/example/a22f3272smd_project/TextOverlay.java:231-236 | records the view size and recalculates |
| TextOverlayView.TextOverlay.OnDraw | app/src/main/java/com/example/a22f3272smd_project/TextOverlay.java:202-229 | nothing without words or with a zero-size view; otherwise recalculates if a scale is 0, then draws the element scene |
| TextScreen.StatusFor | app/src/main/java/com/example/a22f3272smd_project/TextDetection.java:149-154 | the status is never empty: the text itself, or "No text detected in image." for empty text |
| TextScreen.AllElementsLength | app/src/main/java/com/example/a22f3272smd_project/TextDetection.java:157-162 | the flattened list's length is the sum of all line sizes |
| TextScreen.AllElementsMembers | app/src/main/java/com/example/a22f3272smd_project/TextDetection.java:157-162 | an element is in the flattened list exactly when it is in some line of some block |
| TextScreen.AllElementsAppend | app/src/main/java/com/example/a22f3272smd_project/TextDetection.java:157-162 | flattening keeps block order |
| TextScreen.LineElementsMembers | app/src/main/java/com/example/a22f3272smd_project/TextDetection.java:159-161 | an element is in a block's flattening exactly when it is in one of its lines |
| TextScreen.LineElementsLength | app/src/main/java/com/example/a22f3272smd_project/TextDetection.java:159-161 | a block's flattening is as long as the sum of its line sizes |
| TextScreen.CollectElements | app/src/main/java/com/example/a22f3272smd_project/TextDetection.java:157-162 | the nested loops build exactly the flattening, of the summed length |
| TextScreen.TextDetection.constructor | app/src/main/java/com/example/a22f3272smd_project/TextDetection.java:45-59 | camera not bound, button enabled, no frames |
| TextScreen.TextDetection.OnPermissionResult | app/src/main/java/com/example/a22f3272smd_project/TextDetection.java:69-79 | a refusal shows the permission notice |
| TextScreen.TextDetection.OnCameraBound | app/src/main/java/com/example/a22f3272smd_project/TextDetection.java:85-98 | the capture use case exists from then on |
| TextScreen.TextDetection.TakePhoto | app/src/main/java/com/example/a22f3272smd_project/TextDetection.java:106-117 | nothing happens without a bound camera; otherwise the button is disabled, the status is "Processing image..." and the overlay's words are cleared, with view size, image size and rotation kept and the transform recalculated only for a known image size |
| TextScreen.TextDetection.OnCaptureSuccess | app/src/main/java/com/example/a22f3272smd_project/TextDetection.java:119-123 | a failed conversion shows "Error processing image." and closes the frame; otherwise recognition starts; the button is re-enabled |
| TextScreen.TextDetection.OnCaptureError | app/src/main/java/com/example/a22f3272smd_project/TextDetection.java:125-130 | "Failed to capture image." and the button re-enabled |
| TextScreen.TextDetection.OnRecognitionSuccess | app/src/main/java/com/example/a22f3272smd_project/TextDetection.java:148-175 | status from the text; the overlay gets the flattened elements with the image's width, height and rotation, keeps its view size and recalculates its transform for them; the frame is closed once |
| TextScreen.TextDetection.OnRecognitionFailure | app/src/main/java/com/example/a22f3272smd_project/TextDetection.java:176-181 | "Failed to recognize text.", overlay cleared with view size, image size and rotation kept and the transform recalculated only for a known image size, frame closed once |
| FaceScreen.ButtonLabel | app/src/main/java/com/example/a22f3272smd_project/FaceDetection.java:66 | "Resume" when frozen, "Freeze Frame" otherwise |
| FaceScreen.OtherFacing | app/src/main/java/com/example/a22f3272smd_project/FaceDetection.java:161-162 | the toggled facing is always one of the two lenses, and differs from a lens it toggles |
| FaceScreen.ToggleTwiceRestores | app/src/main/java/com/example/a22f3272smd_project/FaceDetection.java:160-162 | toggling twice returns to the starting lens |
| FaceScreen.FaceDetection.constructor | app/src/main/java/com/example/a22f3272smd_project/FaceDetection.java:33-48 | not frozen, front lens, and the overlay told so |
| FaceScreen.FaceDetection.OnFreezeClicked | app/src/main/java/com/example/a22f3272smd_project/FaceDetection.java:64-71 | negates `freeze` and relabels the button |
| FaceScreen.FaceDetection.OnFrame | app/src/main/java/com/example/a22f3272smd_project/FaceDetection.java:97-119 | the detector runs exactly when not frozen and the image converts; otherwise the frame is closed once |
| FaceScreen.FaceDetection.OnDetectionSuccess | app/src/main/java/com/example/a22f3272smd_project/FaceDetection.java:105-108 | the overlay gets the faces and the image size, its scales become view size over image size, one box per face; then the frame is closed once |
| FaceScreen.FaceDetection.OnDetectionFailure | app/src/main/java/com/example/a22f3272smd_project/FaceDetection.java:109-112 | the frame is closed once and the overlay is untouched |
| FaceScreen.FaceDetection.ToggleCamera | app/src/main/java/com/example/a22f3272smd_project/FaceDetection.java:160-171 | the lens changes and the overlay's facing follows it |
| FaceScreen.FaceDetection.FrontLensDrawsUnmirrored | app/src/main/java/com/example/a22f3272smd_project/FaceDetection.java:34-48 | on the starting front lens the overlay's `translateX` does not mirror |

## Left out

- Camera and permissions: `startCamera`, binding to `ProcessCameraProvider` and permission requests are calls into libraries. They appear only as events: a frame arrives, the camera is bound, permission is granted or refused.
- ML Kit: `process`, `getClient` and the detector's `close` are foreign calls. Their results are inputs: raw barcode values, faces, and text blocks of lines of elements. Whether building an `InputImage` succeeds is an input too: `None` in the face and text screens, where the exception is caught, and `converts == false` in the barcode screen, where it is not.
- `Uri.encode` is the parameter `encode`. Its escaping rules are not modelled.
- Side effects only: the Intent launch in `openUrl` and its Chrome fallback, the clipboard, `Toast`, `MediaPlayer`, `Vibrator`, `Log`, `invalidate`/`postInvalidate`, and `cameraExecutor.shutdown()`. No model state depends on them.
- Threads: the analyzer executor and the main thread are not modelled. Every callback is one atomic event, and events are interleaved in any order the preconditions allow.
- Floating point: geometry is over `real`. IEEE rounding, NaN and Infinity are not modelled, and neither is `(int)` saturation for huge values.
- Strings: `String.toLowerCase` is modelled as ASCII lower-casing. Locale rules and non-ASCII case mappings are not modelled. `String.format` output for the probability labels is replaced by the `SmileLabel`/`LeftEyeLabel`/`RightEyeLabel` values.
- Paint colours, stroke widths and text sizes are not modelled. Only which paint a call uses is kept.
- GraphicOverlayView.GraphicOverlay.SetFaces: requires a non-zero image width and height. Java would store Infinity scales for zero.
- GraphicOverlayView.GraphicOverlay.constructor: takes the laid-out view size once and keeps it. In the code `setFaces` and `translateX` read `getWidth()`/`getHeight()` on every call, so a relayout changes later scales and mirrored positions; the model does not capture a view size that changes after construction.
- `processFaceDetectionResults`'s check that `overlay` is non-null is not modelled: the model's overlay always exists. Its logging of the first face is not modelled either.
- `FaceDetection.onDestroy` is not modelled: it only shuts down the executor and closes the detector.
- `ObjectDetection` and `MainActivity` are not part of this model.

=== FILE: barcode_rules.dfy ===
/**
 * The barcode screen's pure decisions: is a decoded payload a product code,
 * a link, or free text, and which URL the screen opens for it; and when the
 * copy and open-link buttons act on the text shown.
 */
module BarcodeRules {
  import opened Nullable
  import opened Strings

  const HttpsScheme: string := "https://"
  const SearchPrefix: string := HttpsScheme + "www.google.com/search?q="
  /** The result text before anything has been scanned. */
  const ScanPlaceholder: string := "Scan a barcode..."

  /** What `openDetectedContent` ends up handing to `openUrl`. */
  datatype Action =
    | ProductSearch(url: string)
    | OpenUrl(url: string)
    | GenericSearch(url: string)

  function AllAsciiDigits(s: string): (r: bool)
    ensures r <==> forall i :: 0 <= i < |s| ==> IsAsciiDigit(s[i])
  {
    s == [] || (IsAsciiDigit(s[0]) && AllAsciiDigits(s[1..]))
  }

  /** `data.matches("\\d{8,14}")`: `\d` is ASCII `[0-9]` and the match covers the whole string. */
  function IsProductBarcode(data: string): (r: bool)
    ensures r <==> 8 <= |data| <= 14 && forall i :: 0 <= i < |data| ==> '0' <= data[i] <= '9'
  {
    8 <= |data| <= 14 && AllAsciiDigits(data)
  }

  /** The characters the regex `.` does not match. */
  predicate IsLineTerminator(c: char)
  {
    c == '\n' || c == '\r' || c == '\U{85}' || c == '\U{2028}' || c == '\U{2029}'
  }

  predicate NoLineTerminator(s: string)
  {
    forall i | 0 <= i < |s| :: !IsLineTerminator(s[i])
  }

  /**
   * The part `\.[a-z]{2,}` of the domain regex occupies `s[i..j]`, and what
   * follows it is either nothing or starts with `/`.
   */
  ghost predicate DotRunAt(s: string, i: int, j: int)
  {
    && 0 <= i && i + 3 <= j <= |s|
    && s[i] == '.'
    && (forall k :: i < k < j ==> IsAsciiLower(s[k]))
    && (j == |s| || s[j] == '/')
  }

  /**
   * `data.matches(".*\\.[a-z]{2,}(/.*)?")` by its definition: the whole string
   * splits into a prefix, a dot run and an optional `/...` tail, where neither
   * `.*` crosses a line terminator (the dot run and `/` are not terminators either).
   */
  ghost predicate DomainRegexMatches(s: string)
  {
    NoLineTerminator(s) && exists i, j :: DotRunAt(s, i, j)
  }

  /** Length of the run of lower-case ASCII letters that ends just before `k`. */
  function LowerRunBefore(s: string, k: nat): (n: nat)
    requires k <= |s|
    ensures n <= k
    ensures forall m :: k - n <= m < k ==> IsAsciiLower(s[m])
    ensures n < k ==> !IsAsciiLower(s[k - n - 1])
  {
    if k == 0 || !IsAsciiLower(s[k - 1]) then 0 else LowerRunBefore(s, k - 1) + 1
  }

  /** A dot run ends at `k`: `k` is the end or a `/`, preceded by a dot and two or more letters. */
  predicate DomainEndsAt(s: string, k: nat)
    requires k <= |s|
  {
    && (k == |s| || s[k] == '/')
    && var n := LowerRunBefore(s, k);
       2 <= n < k && s[k - n - 1] == '.'
  }

  /** Some position at or before `k` ends a dot run. */
  predicate SomeDomainEnd(s: string, k: nat)
    requires k <= |s|
  {
    DomainEndsAt(s, k) || (k > 0 && SomeDomainEnd(s, k - 1))
  }

  /** The executable form of the domain regex, scanning the ends of dot runs. */
  predicate MatchesDomainPattern(s: string)
  {
    NoLineTerminator(s) && SomeDomainEnd(s, |s|)
  }

  lemma {:induction false} SomeDomainEndHasRun(s: string, k: nat)
    requires k <= |s| && SomeDomainEnd(s, k)
    ensures exists i, j :: DotRunAt(s, i, j)
  {
    if DomainEndsAt(s, k) {
      var n := LowerRunBefore(s, k);
      assert DotRunAt(s, k - n - 1, k);
    } else {
      SomeDomainEndHasRun(s, k - 1);
    }
  }

  lemma {:induction false} RunLengthAtEnd(s: string, i: int, j: int)
    requires 0 <= i < j <= |s| && s[i] == '.'
    requires forall k :: i < k < j ==> IsAsciiLower(s[k])
    ensures LowerRunBefore(s, j) == j - i - 1
  {
    if j > i + 1 {
      RunLengthAtEnd(s, i, j - 1);
    }
  }

  lemma {:induction false} DomainEndReached(s: string, j: nat, k: nat)
    requires j <= k <= |s| && DomainEndsAt(s, j)
    ensures SomeDomainEnd(s, k)
  {
    if j < k {
      DomainEndReached(s, j, k - 1);
    }
  }

  /** The scanning matcher accepts exactly the strings the regex matches. */
  lemma MatchesDomainPatternIsRegex(s: string)
    ensures MatchesDomainPattern(s) <==> DomainRegexMatches(s)
  {
    if MatchesDomainPattern(s) {
      SomeDomainEndHasRun(s, |s|);
    }
    if DomainRegexMatches(s) {
      var i, j :| DotRunAt(s, i, j);
      RunLengthAtEnd(s, i, j);
      DomainEndReached(s, j, |s|);
    }
  }

  /** The lower-cased string starts with `http://` or `https://`. */
  predicate HasWebScheme(u: string)
  {
    StartsWith(ToLower(u), "http://") || StartsWith(ToLower(u), "https://")
  }

  /** The second rule of `parseUrl`: a link written without its scheme. */
  predicate LooksLikeHost(data: string)
  {
    var lower := ToLower(data);
    || StartsWith(lower, "www.")
    || EndsWith(lower, ".com")
    || EndsWith(lower, ".org")
    || EndsWith(lower, ".net")
    || MatchesDomainPattern(data)
  }

  /** A string that starts with a lower-case prefix keeps that prefix after lower-casing. */
  lemma LowerPrefixKept(prefix: string, rest: string)
    requires forall i :: 0 <= i < |prefix| ==> !IsAsciiUpper(prefix[i])
    ensures StartsWith(ToLower(prefix + rest), prefix)
  {
    ToLowerAppend(prefix, rest);
    ToLowerOfLower(prefix);
  }

  /** `parseUrl`: `None` stands for its `null` result. */
  function ParseUrl(data: string): (r: Option<string>)
    ensures r.Some? ==> HasWebScheme(r.value)
  {
    if HasWebScheme(data) then Some(data)
    else if LooksLikeHost(data) then
      LowerPrefixKept(HttpsScheme, data);
      Some(HttpsScheme + data)
    else None
  }

  /**
   * The three outcomes of `parseUrl`, with the domain rule read as the
   * regex itself: a link with a scheme comes back unchanged; a host-like
   * string gains `https://`; anything else is `None`.
   */
  lemma ParseUrlCases(data: string)
    ensures HasWebScheme(data) ==> ParseUrl(data) == Some(data)
    ensures !HasWebScheme(data) ==>
      var lower := ToLower(data);
      var hostLike := StartsWith(lower, "www.") || EndsWith(lower, ".com") || EndsWith(lower, ".org")
                      || EndsWith(lower, ".net") || DomainRegexMatches(data);
      && (hostLike ==> ParseUrl(data) == Some(HttpsScheme + data))
      && (!hostLike <==> ParseUrl(data).None?)
  {
    MatchesDomainPatternIsRegex(data);
  }

  /**
   * `openDetectedContent`: a product code is searched for as it is, a link is
   * opened, and anything else is searched for after `Uri.encode`, which is the
   * parameter `encode`.
   */
  function OpenDetectedContent(data: string, encode: string -> string): (a: Action)
    ensures HasWebScheme(a.url)
    ensures a.ProductSearch? <==> IsProductBarcode(data)
    ensures a.ProductSearch? ==> a.url == SearchPrefix + data
    ensures a.OpenUrl? <==> !IsProductBarcode(data) && ParseUrl(data).Some?
    ensures a.OpenUrl? ==> a.url == ParseUrl(data).value && (a.url == data || a.url == HttpsScheme + data)
    ensures a.GenericSearch? <==> !IsProductBarcode(data) && ParseUrl(data).None?
    ensures a.GenericSearch? ==> a.url == SearchPrefix + encode(data)
  {
    var path := "www.google.com/search?q=";
    assert SearchPrefix + data == HttpsScheme + (path + data);
    assert SearchPrefix + encode(data) == HttpsScheme + (path + encode(data));
    LowerPrefixKept(HttpsScheme, path + data);
    LowerPrefixKept(HttpsScheme, path + encode(data));
    if IsProductBarcode(data) then ProductSearch(SearchPrefix + data)
    else match ParseUrl(data)
      case Some(url) => OpenUrl(url)
      case None => GenericSearch(SearchPrefix + encode(data))
  }

  /**
   * A product code is never a link, so checking it first only decides whether
   * the digits are encoded before being searched for.
   */
  lemma ProductBarcodeIsNotUrl(data: string)
    requires IsProductBarcode(data)
    ensures ParseUrl(data) == None
  {
    var lower := ToLower(data);
    assert lower[0] == data[0];
    assert !StartsWith(lower, "http://") && !StartsWith(lower, "https://") && !StartsWith(lower, "www.") by {
      assert "http://"[0] == 'h' && "https://"[0] == 'h' && "www."[0] == 'w';
      assert lower[..7][0] == lower[..8][0] == lower[..4][0] == lower[0];
    }
    assert lower[|data| - 4] == data[|data| - 4];
    assert !EndsWith(lower, ".com") && !EndsWith(lower, ".org") && !EndsWith(lower, ".net") by {
      assert ".com"[0] == ".org"[0] == ".net"[0] == '.';
      assert lower[|lower| - 4..][0] == lower[|data| - 4];
    }
    assert !DomainRegexMatches(data) by {
      if i, j :| DotRunAt(data, i, j) {
        assert data[i] == '.';
      }
    }
    MatchesDomainPatternIsRegex(data);
  }

  /** A link the parser produced is returned by it unchanged. */
  lemma ParseUrlIsIdempotent(data: string)
    requires ParseUrl(data).Some?
    ensures ParseUrl(ParseUrl(data).value) == ParseUrl(data)
  {
  }

  /** The copy button: `Some(text)` is what goes to the clipboard, `None` is "Nothing to copy". */
  function CopyText(shown: string): (r: Option<string>)
    ensures r.Some? ==> r.value == Trim(shown) && r.value != [] && r.value != ScanPlaceholder
    ensures r.None? ==> Trim(shown) == [] || Trim(shown) == ScanPlaceholder
  {
    var text := Trim(shown);
    if text != [] && text != ScanPlaceholder then Some(text) else None
  }

  /** The open-link button: `None` is "No barcode data found". */
  function OpenLink(shown: string, encode: string -> string): (r: Option<Action>)
    ensures r.Some? ==> r.value == OpenDetectedContent(Trim(shown), encode)
    ensures r.None? <==> CopyText(shown).None?
  {
    var data := Trim(shown);
    if data == [] || data == ScanPlaceholder then None else Some(OpenDetectedContent(data, encode))
  }
}

=== FILE: barcode_screen.dfy ===
/**
 * The barcode screen's analyzer callback as a state machine over the fields
 * `scanned` and `lastScannedData`, driven by discrete events: a frame
 * arrives, the scanner succeeds or fails on a frame, the clock advances, the
 * 2000 ms reset posted on the handler fires, and the screen is destroyed.
 */
module BarcodeScreen {
  import opened Nullable
  import opened Vision
  import opened BarcodeRules

  /** The delay of the handler callback that re-opens scanning. */
  const ResetDelayMs: int := 2000

  /**
   * The decision of the scanner's success listener: the first barcode's raw
   * value is accepted when it is present and differs from the last accepted
   * value. `None` in `rawValues` is a barcode whose raw value is null.
   */
  function AcceptedValue(rawValues: seq<Option<string>>, lastScannedData: string): (r: Option<string>)
    ensures r.Some? ==> |rawValues| > 0 && rawValues[0] == r && r.value != lastScannedData
    ensures r.None? ==> rawValues == [] || rawValues[0].None? || rawValues[0] == Some(lastScannedData)
  {
    if |rawValues| > 0 && rawValues[0].Some? && rawValues[0].value != lastScannedData then rawValues[0] else None
  }

  /** No two consecutive accepted values are equal. */
  predicate ChangesEachTime(s: seq<string>)
  {
    forall i :: 0 < i < |s| ==> s[i - 1] != s[i]
  }

  predicate Sorted(s: seq<int>)
  {
    forall i, j :: 0 <= i < j < |s| ==> s[i] <= s[j]
  }

  class BarcodeDetection {
    var scanned: bool
    var lastScannedData: string
    /** The text of the result view. */
    var resultText: string
    /** Milliseconds on the handler's clock. */
    var clock: int
    /** Due times of the resets posted on the handler and not yet run, earliest first. */
    var pendingResets: seq<int>
    /** Frames handed to the scanner whose listener has not run yet. */
    var inFlight: set<FrameId>
    /** Every `image.close()`, in order. */
    var closed: seq<FrameId>
    /** Every value passed to `handleResult`, in order. */
    var accepted: seq<string>
    /**
     * Frames whose `InputImage` could not be built: the exception leaves the
     * analyzer before any listener is attached, so they are never closed.
     */
    var leaked: set<FrameId>
    /**
     * `onDestroy` has run. The camera bound to the activity's lifecycle has
     * stopped by then, so no new frame reaches the analyzer; `shutdown` itself
     * only refuses new tasks and lets submitted ones finish.
     */
    var destroyed: bool

    ghost predicate Valid()
      reads this
    {
      && NoRepeats(closed)
      && (forall i :: 0 <= i < |closed| ==> closed[i] !in inFlight && closed[i] !in leaked)
      && inFlight !! leaked
      && ChangesEachTime(accepted)
      && (if accepted == [] then lastScannedData == "" else lastScannedData == accepted[|accepted| - 1])
      && Sorted(pendingResets)
      && (forall i :: 0 <= i < |pendingResets| ==> pendingResets[i] <= clock + ResetDelayMs)
    }

    /** `onCreate`; `initialText` is the result view's text from the layout. */
    constructor (startTime: int, initialText: string)
      ensures Valid()
      ensures !scanned && lastScannedData == "" && resultText == initialText
      ensures clock == startTime && pendingResets == []
      ensures inFlight == {} && closed == [] && leaked == {} && accepted == [] && !destroyed
    {
      scanned := false;
      lastScannedData := "";
      resultText := initialText;
      clock := startTime;
      pendingResets := [];
      inFlight := {};
      closed := [];
      leaked := {};
      accepted := [];
      destroyed := false;
    }

    /**
     * The analyzer. While `scanned` is true the frame is closed. Otherwise the
     * `InputImage` is built (`converts` says whether that succeeds) and handed
     * to the scanner; a failed conversion throws past the analyzer, and the
     * frame is neither scanned nor closed.
     */
    method OnFrame(f: FrameId, converts: bool) returns (invoked: bool)
      requires Valid() && !destroyed
      requires f !in inFlight && f !in closed && f !in leaked
      modifies this
      ensures Valid()
      ensures invoked == (!old(scanned) && converts)
      ensures invoked ==> inFlight == old(inFlight) + {f} && closed == old(closed) && leaked == old(leaked)
      ensures old(scanned) ==> inFlight == old(inFlight) && closed == old(closed) + [f] && leaked == old(leaked)
      ensures !old(scanned) && !converts ==> inFlight == old(inFlight) && closed == old(closed) && leaked == old(leaked) + {f}
      ensures scanned == old(scanned) && lastScannedData == old(lastScannedData) && resultText == old(resultText)
      ensures clock == old(clock) && pendingResets == old(pendingResets)
      ensures accepted == old(accepted) && destroyed == old(destroyed)
    {
      invoked := false;
      if !scanned {
        if converts {
          inFlight := inFlight + {f};
          invoked := true;
        } else {
          leaked := leaked + {f};
        }
      } else {
        closed := closed + [f];
      }
    }

    /**
     * The scanner's success listener for frame `f`: accept the first raw value
     * when it is new (set `scanned`, record it, show it, post the reset), then
     * close the frame.
     */
    method OnScanSuccess(f: FrameId, rawValues: seq<Option<string>>) returns (value: Option<string>)
      requires Valid() && f in inFlight
      modifies this
      ensures Valid()
      ensures value == AcceptedValue(rawValues, old(lastScannedData))
      ensures value.Some? ==> && scanned && lastScannedData == value.value && resultText == value.value
                              && accepted == old(accepted) + [value.value]
                              && pendingResets == old(pendingResets) + [old(clock) + ResetDelayMs]
      ensures value.None? ==> && scanned == old(scanned) && lastScannedData == old(lastScannedData)
                              && resultText == old(resultText) && accepted == old(accepted)
                              && pendingResets == old(pendingResets)
      ensures inFlight == old(inFlight) - {f} && closed == old(closed) + [f]
      ensures clock == old(clock) && destroyed == old(destroyed) && leaked == old(leaked)
    {
      value := AcceptedValue(rawValues, lastScannedData);
      if value.Some? {
        scanned := true;
        lastScannedData := value.value;
        resultText := value.value;
        accepted := accepted + [value.value];
        pendingResets := pendingResets + [clock + ResetDelayMs];
      }
      inFlight := inFlight - {f};
      closed := closed + [f];
    }

    /** The scanner's failure listener for frame `f`: only closes the frame. */
    method OnScanFailure(f: FrameId)
      requires Valid() && f in inFlight
      modifies this
      ensures Valid()
      ensures inFlight == old(inFlight) - {f} && closed == old(closed) + [f]
      ensures scanned == old(scanned) && lastScannedData == old(lastScannedData) && resultText == old(resultText)
      ensures clock == old(clock) && pendingResets == old(pendingResets)
      ensures accepted == old(accepted) && destroyed == old(destroyed) && leaked == old(leaked)
    {
      inFlight := inFlight - {f};
      closed := closed + [f];
    }

    /** Time passes on the handler's clock. */
    method AdvanceClock(now: int)
      requires Valid() && clock <= now
      modifies this
      ensures Valid()
      ensures clock == now
      ensures scanned == old(scanned) && lastScannedData == old(lastScannedData) && resultText == old(resultText)
      ensures pendingResets == old(pendingResets) && inFlight == old(inFlight) && closed == old(closed)
      ensures accepted == old(accepted) && destroyed == old(destroyed) && leaked == old(leaked)
    {
      clock := now;
    }

    /** The earliest posted reset runs once its due time has come: scanning is allowed again. */
    method FireReset()
      requires Valid() && pendingResets != [] && pendingResets[0] <= clock
      modifies this
      ensures Valid()
      ensures !scanned && pendingResets == old(pendingResets)[1..]
      ensures lastScannedData == old(lastScannedData) && resultText == old(resultText) && clock == old(clock)
      ensures inFlight == old(inFlight) && closed == old(closed)
      ensures accepted == old(accepted) && destroyed == old(destroyed) && leaked == old(leaked)
    {
      scanned := false;
      pendingResets := pendingResets[1..];
    }

    /** `onDestroy`: the executor stops and `removeCallbacksAndMessages(null)` drops every pending reset. */
    method OnDestroy()
      requires Valid()
      modifies this
      ensures Valid()
      ensures destroyed && pendingResets == []
      ensures scanned == old(scanned) && lastScannedData == old(lastScannedData) && resultText == old(resultText)
      ensures clock == old(clock) && inFlight == old(inFlight) && closed == old(closed)
      ensures accepted == old(accepted) && leaked == old(leaked)
    {
      destroyed := true;
      pendingResets := [];
    }

    /** The copy button acts on the result text; nothing on the screen changes. */
    method OnCopyClicked() returns (copied: Option<string>)
      ensures copied == CopyText(resultText)
      ensures copied.Some? ==> copied.value != [] && copied.value != ScanPlaceholder
    {
      copied := CopyText(resultText);
    }

    /** The open-link button acts on the result text; `encode` stands for `Uri.encode`. */
    method OnOpenLinkClicked(encode: string -> string) returns (action: Option<Action>)
      ensures action == OpenLink(resultText, encode)
      ensures action.Some? ==> HasWebScheme(action.value.url)
    {
      action := OpenLink(resultText, encode);
    }
  }

  /**
   * Once a value is accepted, a second acceptance of the same value needs a
   * different value accepted in between, however much time passes: the
   * accepted values never repeat back to back.
   */
  lemma AcceptedValuesChange(b: BarcodeDetection, i: nat, j: nat)
    requires b.Valid()
    requires i < j < |b.accepted| && b.accepted[i] == b.accepted[j]
    ensures exists k :: i < k < j && b.accepted[k] != b.accepted[i]
  {
    assert b.accepted[j - 1] != b.accepted[j];
  }
}

=== FILE: face_detection.dfy ===
/**
 * The face screen (`FaceDetection`): a freeze button that gates the
 * analyzer, a camera-facing flag kept in step with the `GraphicOverlay`, and
 * the analyzer's four ways of finishing a frame, each of which closes it.
 */
module FaceScreen {
  import opened Nullable
  import opened Vision
  import opened OverlayGraphic
  import opened GraphicOverlayView

  const FreezeLabel := "Freeze Frame"
  const ResumeLabel := "Resume"

  /** The button text for a freeze state. */
  function ButtonLabel(freeze: bool): (text: string)
    ensures freeze ==> text == ResumeLabel
    ensures !freeze ==> text == FreezeLabel
  {
    if freeze then ResumeLabel else FreezeLabel
  }

  /** `toggleCamera`'s choice: front becomes back, anything else becomes front. */
  function OtherFacing(facing: int): (r: int)
    ensures r == LensFacingFront || r == LensFacingBack
    ensures r != facing || facing !in {LensFacingFront, LensFacingBack}
  {
    if facing == LensFacingFront then LensFacingBack else LensFacingFront
  }

  /** Toggling twice from either lens comes back to it. */
  lemma ToggleTwiceRestores(facing: int)
    requires facing == LensFacingFront || facing == LensFacingBack
    ensures OtherFacing(OtherFacing(facing)) == facing
  {
  }

  class FaceDetection {
    var freeze: bool
    var buttonLabel: string
    var cameraFacing: int
    const overlay: GraphicOverlay
    /** Frames handed to the detector and not yet finished, with their `InputImage`. */
    var detecting: map<FrameId, InputImage>
    /** Every `image.close()`, in order. */
    var closed: seq<FrameId>

    /**
     * The overlay's facing equals the screen's, the facing is one of the two
     * lenses, no frame is closed twice and no frame under detection is
     * closed yet.
     */
    ghost predicate Valid()
      reads this, overlay
    {
      && overlay.cameraFacing == cameraFacing
      && (cameraFacing == LensFacingFront || cameraFacing == LensFacingBack)
      && buttonLabel == ButtonLabel(freeze)
      && NoRepeats(closed)
      && (forall f :: f in detecting ==> f !in closed)
      && (forall f :: f in detecting ==> detecting[f].width != 0 && detecting[f].height != 0)
    }

    /** `onCreate`: not frozen, front lens, and the overlay told so. */
    constructor (viewWidth: int, viewHeight: int)
      requires viewWidth >= 0 && viewHeight >= 0
      ensures Valid()
      ensures !freeze && buttonLabel == FreezeLabel
      ensures cameraFacing == LensFacingFront && overlay.cameraFacing == LensFacingFront
      ensures overlay.graphics == [] && detecting == map[] && closed == []
      ensures fresh(overlay)
    {
      freeze := false;
      buttonLabel := FreezeLabel;
      cameraFacing := LensFacingFront;
      overlay := new GraphicOverlay(viewWidth, viewHeight);
      detecting := map[];
      closed := [];
      new;
      overlay.SetCameraFacing(cameraFacing);
    }

    /** The freeze button: negate `freeze` and relabel the button. */
    method OnFreezeClicked()
      requires Valid()
      modifies this
      ensures Valid()
      ensures freeze == !old(freeze)
      ensures buttonLabel == (if freeze then ResumeLabel else FreezeLabel)
      ensures cameraFacing == old(cameraFacing) && detecting == old(detecting) && closed == old(closed)
    {
      freeze := !freeze;
      buttonLabel := ButtonLabel(freeze);
    }

    /**
     * The analyzer: a frozen screen closes the frame without detection; so
     * does a frame whose `InputImage` cannot be built (`conversion` is
     * `None`); any other frame goes to the detector.
     */
    method OnFrame(frame: FrameId, conversion: Option<InputImage>) returns (detected: bool)
      requires Valid()
      requires frame !in detecting && frame !in closed
      requires conversion.Some? ==> conversion.value.width > 0 && conversion.value.height > 0
      modifies this
      ensures Valid()
      ensures detected <==> !freeze && conversion.Some?
      ensures detected ==> detecting == old(detecting)[frame := conversion.value] && closed == old(closed)
      ensures !detected ==> detecting == old(detecting) && closed == old(closed) + [frame]
      ensures freeze == old(freeze) && cameraFacing == old(cameraFacing) && buttonLabel == old(buttonLabel)
    {
      if !freeze {
        match conversion {
          case None =>
            closed := closed + [frame];
            detected := false;
          case Some(image) =>
            detecting := detecting[frame := image];
            detected := true;
        }
      } else {
        closed := closed + [frame];
        detected := false;
      }
    }

    /**
     * Detection succeeded: `processFaceDetectionResults` hands the faces and
     * the image size to the overlay, then the frame is closed.
     */
    method OnDetectionSuccess(frame: FrameId, faces: seq<Face>)
      requires Valid()
      requires frame in detecting
      modifies this, overlay
      ensures Valid()
      ensures var image := old(detecting)[frame];
        && overlay.graphics == FaceGraphics(faces) && overlay.faces == Some(faces)
        && overlay.imageWidth == image.width && overlay.imageHeight == image.height
        && overlay.scaleX == overlay.width as real / image.width as real
        && overlay.scaleY == overlay.height as real / image.height as real
      ensures overlay.cameraFacing == old(overlay.cameraFacing)
      ensures Count(Scene(overlay.graphics, overlay.Projection()), IsBox) == |faces|
      ensures closed == old(closed) + [frame] && detecting == old(detecting) - {frame}
      ensures freeze == old(freeze) && cameraFacing == old(cameraFacing) && buttonLabel == old(buttonLabel)
    {
      var image := detecting[frame];
      overlay.SetFaces(faces, image.width, image.height);
      closed := closed + [frame];
      detecting := detecting - {frame};
    }

    /** Detection failed: the frame is closed and the overlay left alone. */
    method OnDetectionFailure(frame: FrameId)
      requires Valid()
      requires frame in detecting
      modifies this
      ensures Valid()
      ensures closed == old(closed) + [frame] && detecting == old(detecting) - {frame}
      ensures freeze == old(freeze) && cameraFacing == old(cameraFacing) && buttonLabel == old(buttonLabel)
    {
      closed := closed + [frame];
      detecting := detecting - {frame};
    }

    /** `toggleCamera`: switch lens and tell the overlay. */
    method ToggleCamera()
      requires Valid()
      modifies this, overlay
      ensures Valid()
      ensures cameraFacing == OtherFacing(old(cameraFacing)) && cameraFacing != old(cameraFacing)
      ensures overlay.cameraFacing == cameraFacing
      ensures overlay.graphics == old(overlay.graphics) && overlay.scaleX == old(overlay.scaleX)
      ensures overlay.scaleY == old(overlay.scaleY)
      ensures freeze == old(freeze) && detecting == old(detecting) && closed == old(closed)
    {
      cameraFacing := if cameraFacing == LensFacingFront then LensFacingBack else LensFacingFront;
      overlay.SetCameraFacing(cameraFacing);
    }

    /**
     * On the front lens, which the screen starts with, the overlay does not
     * mirror: `translateX` mirrors only for facing 1, which CameraX calls
     * the back lens.
     */
    lemma FrontLensDrawsUnmirrored(x: real)
      requires Valid() && cameraFacing == LensFacingFront
      ensures TranslateX(overlay.Projection(), x) == ScaleX(overlay.Projection(), x)
    {
    }
  }
}

=== FILE: face_graphic.dfy ===
/**
 * The standalone `FaceGraphic`: the canvas calls its `draw` makes for one
 * face, as a sequence of drawing primitives in view coordinates.
 */
module FaceGraphic {
  import opened Nullable
  import opened Vision
  import opened OverlayGraphic

  const FacePositionRadius: real := 4.0

  /** The landmarks in the order `draw` visits them. */
  const DrawnLandmarks: seq<LandmarkType> :=
    [LeftEye, RightEye, LeftEar, RightEar, LeftCheek, RightCheek, NoseBase, MouthLeft, MouthRight, MouthBottom]

  /** The face's bounding box after `translateX` / `translateY`. */
  datatype Box = Box(left: real, top: real, right: real, bottom: real)

  function FaceBox(f: Face, p: Projection): Box
  {
    Box(TranslateX(p, f.boundingBox.left as real), TranslateY(p, f.boundingBox.top as real),
        TranslateX(p, f.boundingBox.right as real), TranslateY(p, f.boundingBox.bottom as real))
  }

  /** The dot `drawLandmark` draws for a landmark that is present. */
  function LandmarkDot(f: Face, t: LandmarkType, p: Projection): Primitive
    requires t in f.landmarks
  {
    DrawCircle(TranslateX(p, f.landmarks[t].x), TranslateY(p, f.landmarks[t].y), FacePositionRadius, LandmarkPaint)
  }

  /** `drawLandmark` for each type of `types` in turn: a missing landmark draws nothing. */
  function LandmarkDots(f: Face, types: seq<LandmarkType>, p: Projection): (r: seq<Primitive>)
    ensures |r| <= |types|
  {
    if types == [] then []
    else
      var t := types[|types| - 1];
      LandmarkDots(f, types[..|types| - 1], p) + (if t in f.landmarks then [LandmarkDot(f, t, p)] else [])
  }

  /**
   * A dot is drawn for every present landmark among `types`, at its
   * translated position, and every dot drawn is such a dot.
   */
  lemma {:induction false} LandmarkDotsArePresentLandmarks(f: Face, types: seq<LandmarkType>, p: Projection)
    ensures forall t :: t in types && t in f.landmarks ==> LandmarkDot(f, t, p) in LandmarkDots(f, types, p)
    ensures forall q :: q in LandmarkDots(f, types, p) ==>
              exists t :: t in types && t in f.landmarks && q == LandmarkDot(f, t, p)
  {
    if types != [] {
      var init := types[..|types| - 1];
      LandmarkDotsArePresentLandmarks(f, init, p);
      assert forall t :: t in types ==> t in init || t == types[|types| - 1];
      forall q | q in LandmarkDots(f, types, p)
        ensures exists t :: t in types && t in f.landmarks && q == LandmarkDot(f, t, p)
      {
        if q in LandmarkDots(f, init, p) {
          var t :| t in init && t in f.landmarks && q == LandmarkDot(f, t, p);
          assert t in types;
        } else {
          assert types[|types| - 1] in types;
        }
      }
    }
  }

  /**
   * The centre of the smile arc: by default the box's centre column, 30% of
   * the box height above its bottom; with both mouth corners, the mean of
   * their translated x values and the mean of the translated y values of the
   * corners and, when present, the mouth bottom.
   */
  function MouthCenter(f: Face, p: Projection, b: Box): (real, real)
  {
    var lm := f.landmarks;
    if MouthLeft in lm && MouthRight in lm then
      var x := (TranslateX(p, lm[MouthLeft].x) + TranslateX(p, lm[MouthRight].x)) / 2.0;
      var y :=
        if MouthBottom in lm then
          (TranslateY(p, lm[MouthLeft].y) + TranslateY(p, lm[MouthRight].y) + TranslateY(p, lm[MouthBottom].y)) / 3.0
        else
          (TranslateY(p, lm[MouthLeft].y) + TranslateY(p, lm[MouthRight].y)) / 2.0;
      (x, y)
    else
      ((b.left + b.right) / 2.0, b.bottom - (b.bottom - b.top) * 0.3)
  }

  /** The smile label and the smile arc, drawn only when the smiling probability is known. */
  function SmilePart(f: Face, p: Projection, b: Box): seq<Primitive>
  {
    match f.smilingProbability
    case None => []
    case Some(prob) =>
      var mouthWidth := (b.right - b.left) * 0.7;
      var mouthHeight := mouthWidth * 0.4 * prob;
      var (mx, my) := MouthCenter(f, p, b);
      [ DrawText(SmileLabel(prob), b.left, b.bottom + 40.0, IdPaint),
        DrawArc(mx - mouthWidth / 2.0, my - mouthHeight / 2.0, mx + mouthWidth / 2.0, my + mouthHeight / 2.0,
                0.0, 180.0, SmilePaint) ]
  }

  datatype Eye = Left | Right

  function EyeOpenProbability(f: Face, eye: Eye): Option<real>
  {
    if eye == Left then f.leftEyeOpenProbability else f.rightEyeOpenProbability
  }

  function EyeLandmark(eye: Eye): LandmarkType
  {
    if eye == Left then LeftEye else RightEye
  }

  function EyeLabel(eye: Eye, prob: real): Label
  {
    if eye == Left then LeftEyeLabel(prob) else RightEyeLabel(prob)
  }

  /** How far below the box bottom each label line sits. */
  function EyeLabelOffset(eye: Eye): real
  {
    if eye == Left then 80.0 else 120.0
  }

  /** `Math.max(0.1f, prob)`: an eye is never drawn completely shut. */
  function Openness(prob: real): (r: real)
    ensures r >= 0.1 && r >= prob
    ensures r == prob || r == 0.1
  {
    if 0.1 >= prob then 0.1 else prob
  }

  /** The label and the ellipse of one eye, drawn only with both its probability and its landmark. */
  function EyePart(f: Face, eye: Eye, p: Projection, b: Box): seq<Primitive>
  {
    var t := EyeLandmark(eye);
    match EyeOpenProbability(f, eye)
    case None => []
    case Some(prob) =>
      if t !in f.landmarks then []
      else
        var eyeX := TranslateX(p, f.landmarks[t].x);
        var eyeY := TranslateY(p, f.landmarks[t].y);
        var eyeSize := ScaleX(p, 15.0);
        var openness := Openness(prob);
        [ DrawText(EyeLabel(eye, prob), b.left, b.bottom + EyeLabelOffset(eye), IdPaint),
          DrawOval(eyeX - eyeSize, eyeY - eyeSize * openness, eyeX + eyeSize, eyeY + eyeSize * openness, EyePaint) ]
  }

  /** `FaceGraphic.draw`; `None` is a null face. */
  function Draw(face: Option<Face>, p: Projection): seq<Primitive>
  {
    match face
    case None => []
    case Some(f) =>
      var b := FaceBox(f, p);
      [ DrawRect(b.left, b.top, b.right, b.bottom, BoxPaint),
        DrawCircle((b.left + b.right) / 2.0, (b.top + b.bottom) / 2.0, FacePositionRadius, FacePositionPaint) ]
      + LandmarkDots(f, DrawnLandmarks, p)
      + SmilePart(f, p, b)
      + EyePart(f, Left, p, b)
      + EyePart(f, Right, p, b)
  }

  predicate IsOval(q: Primitive) { q.DrawOval? }

  predicate IsText(q: Primitive) { q.DrawText? }

  predicate IsArc(q: Primitive) { q.DrawArc? }

  function Indicator(b: bool): nat { if b then 1 else 0 }

  /** A null face draws nothing; otherwise the box comes first and the face's centre dot sits at its middle. */
  lemma DrawStartsWithBoxAndCentre(face: Option<Face>, p: Projection)
    ensures face.None? ==> Draw(face, p) == []
    ensures face.Some? ==>
      var d := Draw(face, p);
      var b := face.value.boundingBox;
      && |d| >= 2 && d[0].DrawRect? && d[1].DrawCircle?
      && d[0].left == TranslateX(p, b.left as real) && d[0].top == TranslateY(p, b.top as real)
      && d[0].right == TranslateX(p, b.right as real) && d[0].bottom == TranslateY(p, b.bottom as real)
      && 2.0 * d[1].cx == d[0].left + d[0].right && 2.0 * d[1].cy == d[0].top + d[0].bottom
  {
  }

  predicate IsLandmarkDot(q: Primitive) { q.DrawCircle? && q.paint == LandmarkPaint }

  lemma EveryTypeIsDrawn(t: LandmarkType)
    ensures t in DrawnLandmarks
  {
  }

  /**
   * Exactly the landmarks the face has are dotted: each at its translated
   * position, and no landmark-coloured dot for anything else.
   */
  lemma DrawDotsPresentLandmarks(f: Face, p: Projection)
    ensures forall t :: t in f.landmarks ==> LandmarkDot(f, t, p) in Draw(Some(f), p)
    ensures forall q :: q in Draw(Some(f), p) && IsLandmarkDot(q) ==>
              exists t :: t in f.landmarks && q == LandmarkDot(f, t, p)
  {
    LandmarkDotsArePresentLandmarks(f, DrawnLandmarks, p);
    forall t | t in f.landmarks
      ensures LandmarkDot(f, t, p) in Draw(Some(f), p)
    {
      EveryTypeIsDrawn(t);
    }
  }

  /** A landmark-dot list holds no circle-free shape of any kind `keep` selects. */
  lemma {:induction false} DotsHaveNoOtherShapes(f: Face, types: seq<LandmarkType>, p: Projection, keep: Primitive -> bool)
    requires forall q: Primitive :: keep(q) ==> !q.DrawCircle?
    ensures Count(LandmarkDots(f, types, p), keep) == 0
  {
    if types != [] {
      var t := types[|types| - 1];
      DotsHaveNoOtherShapes(f, types[..|types| - 1], p, keep);
      CountAppend(LandmarkDots(f, types[..|types| - 1], p), if t in f.landmarks then [LandmarkDot(f, t, p)] else [], keep);
      if t in f.landmarks {
        assert Count([LandmarkDot(f, t, p)], keep) == Count([], keep) + 0 by {
          assert [LandmarkDot(f, t, p)][..0] == [];
        }
      }
    }
  }

  function EyeDrawn(f: Face, eye: Eye): bool
  {
    EyeOpenProbability(f, eye).Some? && EyeLandmark(eye) in f.landmarks
  }

  lemma CountPair(a: Primitive, b: Primitive, keep: Primitive -> bool)
    ensures Count([a, b], keep) == Indicator(keep(a)) + Indicator(keep(b))
  {
    assert [a, b][..1] == [a];
    assert [a][..0] == [];
  }

  lemma CountSplit(f: Face, p: Projection, keep: Primitive -> bool)
    requires forall q: Primitive :: keep(q) ==> !q.DrawCircle? && !q.DrawRect?
    ensures var b := FaceBox(f, p);
      Count(Draw(Some(f), p), keep) ==
        Count(SmilePart(f, p, b), keep) + Count(EyePart(f, Left, p, b), keep) + Count(EyePart(f, Right, p, b), keep)
  {
    var b := FaceBox(f, p);
    var head := [ DrawRect(b.left, b.top, b.right, b.bottom, BoxPaint),
                  DrawCircle((b.left + b.right) / 2.0, (b.top + b.bottom) / 2.0, FacePositionRadius, FacePositionPaint) ];
    var dots := LandmarkDots(f, DrawnLandmarks, p);
    var smile := SmilePart(f, p, b);
    var le := EyePart(f, Left, p, b);
    var re := EyePart(f, Right, p, b);
    CountPair(head[0], head[1], keep);
    DotsHaveNoOtherShapes(f, DrawnLandmarks, p, keep);
    CountAppend(head, dots, keep);
    CountAppend(head + dots, smile, keep);
    CountAppend(head + dots + smile, le, keep);
    CountAppend(head + dots + smile + le, re, keep);
  }

  /**
   * One smile arc exactly when the smiling probability is known; one eye
   * ellipse for each eye with both an open probability and a landmark; one
   * label for each of those.
   */
  lemma DrawCounts(f: Face, p: Projection)
    ensures Count(Draw(Some(f), p), IsArc) == Indicator(f.smilingProbability.Some?)
    ensures Count(Draw(Some(f), p), IsOval) == Indicator(EyeDrawn(f, Left)) + Indicator(EyeDrawn(f, Right))
    ensures Count(Draw(Some(f), p), IsText) ==
              Indicator(f.smilingProbability.Some?) + Indicator(EyeDrawn(f, Left)) + Indicator(EyeDrawn(f, Right))
  {
    var b := FaceBox(f, p);
    CountSplit(f, p, IsArc);
    CountSplit(f, p, IsOval);
    CountSplit(f, p, IsText);
    SmileCounts(f, p, b);
    EyeCounts(f, Left, p, b);
    EyeCounts(f, Right, p, b);
  }

  lemma SmileCounts(f: Face, p: Projection, b: Box)
    ensures Count(SmilePart(f, p, b), IsArc) == Indicator(f.smilingProbability.Some?)
    ensures Count(SmilePart(f, p, b), IsOval) == 0
    ensures Count(SmilePart(f, p, b), IsText) == Indicator(f.smilingProbability.Some?)
  {
    var smile := SmilePart(f, p, b);
    if smile != [] {
      CountPair(smile[0], smile[1], IsArc);
      CountPair(smile[0], smile[1], IsOval);
      CountPair(smile[0], smile[1], IsText);
    }
  }

  lemma EyeCounts(f: Face, eye: Eye, p: Projection, b: Box)
    ensures Count(EyePart(f, eye, p, b), IsArc) == 0
    ensures Count(EyePart(f, eye, p, b), IsOval) == Indicator(EyeDrawn(f, eye))
    ensures Count(EyePart(f, eye, p, b), IsText) == Indicator(EyeDrawn(f, eye))
  {
    var part := EyePart(f, eye, p, b);
    if part != [] {
      CountPair(part[0], part[1], IsArc);
      CountPair(part[0], part[1], IsOval);
      CountPair(part[0], part[1], IsText);
    }
  }

  /**
   * Where a label may sit: at the box's left edge in the label paint, in
   * rows 40, 80 and 120 below the box bottom for smile, left eye and right
   * eye, showing the face's own probability.
   */
  ghost predicate LabelPlaced(f: Face, b: Box, q: Primitive)
    requires q.DrawText?
  {
    && q.x == b.left && q.paint == IdPaint
    && match q.caption
       case SmileLabel(prob) => q.y == b.bottom + 40.0 && f.smilingProbability == Some(prob)
       case LeftEyeLabel(prob) => q.y == b.bottom + 80.0 && f.leftEyeOpenProbability == Some(prob)
       case RightEyeLabel(prob) => q.y == b.bottom + 120.0 && f.rightEyeOpenProbability == Some(prob)
       case Literal(_) => false
  }

  /** Every label `draw` writes stacks below the box as `LabelPlaced` says. */
  lemma LabelsStackBelowBox(f: Face, p: Projection)
    ensures forall q :: q in Draw(Some(f), p) && q.DrawText? ==> LabelPlaced(f, FaceBox(f, p), q)
  {
    var b := FaceBox(f, p);
    LandmarkDotsArePresentLandmarks(f, DrawnLandmarks, p);
    var head := [ DrawRect(b.left, b.top, b.right, b.bottom, BoxPaint),
                  DrawCircle((b.left + b.right) / 2.0, (b.top + b.bottom) / 2.0, FacePositionRadius, FacePositionPaint) ];
    var dots := LandmarkDots(f, DrawnLandmarks, p);
    var smile := SmilePart(f, p, b);
    var le := EyePart(f, Left, p, b);
    var re := EyePart(f, Right, p, b);
    assert Draw(Some(f), p) == head + dots + smile + le + re;
    forall q | q in Draw(Some(f), p) && q.DrawText?
      ensures LabelPlaced(f, b, q)
    {
      if q in dots {
        assert false;
      } else if q in smile {
        assert q == smile[0];
      } else if q in le {
        assert q == le[0];
      } else if q in re {
        assert q == re[0];
      } else {
        assert false;
      }
    }
  }

  /**
   * The smile arc is the lower half (0 to 180 degrees) of an ellipse
   * centred on the mouth centre, 70% of the box width wide and
   * 0.4 * width * probability high.
   */
  lemma SmileArcGeometry(f: Face, p: Projection)
    requires f.smilingProbability.Some?
    ensures var b := FaceBox(f, p);
      var prob := f.smilingProbability.value;
      var arc := SmilePart(f, p, b)[1];
      var center := MouthCenter(f, p, b);
      && arc.DrawArc? && arc.paint == SmilePaint
      && arc.startAngle == 0.0 && arc.sweepAngle == 180.0
      && arc.left + arc.right == 2.0 * center.0 && arc.top + arc.bottom == 2.0 * center.1
      && arc.right - arc.left == 0.7 * (b.right - b.left)
      && arc.bottom - arc.top == 0.7 * (b.right - b.left) * 0.4 * prob
  {
  }

  /**
   * The mouth centre lies between the two mouth corners when both are
   * known; otherwise it is on the box's centre column, inside the box.
   */
  lemma MouthCenterPlacement(f: Face, p: Projection)
    ensures var b := FaceBox(f, p);
      var c := MouthCenter(f, p, b);
      var lm := f.landmarks;
      if MouthLeft in lm && MouthRight in lm then
        var xl := TranslateX(p, lm[MouthLeft].x);
        var xr := TranslateX(p, lm[MouthRight].x);
        (xl <= c.0 <= xr || xr <= c.0 <= xl)
      else
        2.0 * c.0 == b.left + b.right && (b.top <= b.bottom ==> b.top <= c.1 <= b.bottom)
  {
  }

  /**
   * An eye ellipse is centred on the translated eye landmark, `scaleX(15)`
   * either side horizontally, and its half-height is that size times an
   * openness of at least 0.1 that follows the probability above 0.1.
   */
  lemma EyeOvalGeometry(f: Face, eye: Eye, p: Projection)
    requires EyeDrawn(f, eye)
    ensures var b := FaceBox(f, p);
      var e := EyePart(f, eye, p, b);
      var pos := f.landmarks[EyeLandmark(eye)];
      var prob := EyeOpenProbability(f, eye).value;
      var size := ScaleX(p, 15.0);
      var oval := e[1];
      && |e| == 2 && oval.DrawOval? && oval.paint == EyePaint
      && oval.left + oval.right == 2.0 * TranslateX(p, pos.x)
      && oval.top + oval.bottom == 2.0 * TranslateY(p, pos.y)
      && oval.right - oval.left == 2.0 * size
      && oval.bottom - oval.top == 2.0 * size * Openness(prob)
  {
  }
}

=== FILE: graphic_overlay.dfy ===
/**
 * `GraphicOverlay`: the view that holds the graphics of the face screen, its
 * private inner `FaceGraphic`, and the scene a redraw paints.
 */
module GraphicOverlayView {
  import opened Nullable
  import opened Vision
  import opened OverlayGraphic
  import FaceGraphic

  /** The smile arc and label of the inner `FaceGraphic`, drawn only with a known smiling probability. */
  function InnerSmilePart(f: Face, b: FaceGraphic.Box): seq<Primitive>
  {
    match f.smilingProbability
    case None => []
    case Some(prob) =>
      var centerX := (b.left + b.right) / 2.0;
      var centerY := b.bottom - 30.0;
      var mouthWidth := (b.right - b.left) * 0.8;
      var smileHeight := mouthWidth * 0.2 * prob;
      [ DrawText(SmileLabel(prob), b.left, b.bottom + 40.0, IdPaint),
        DrawArc(centerX - mouthWidth / 2.0, centerY - smileHeight / 2.0, centerX + mouthWidth / 2.0, centerY + smileHeight / 2.0,
                0.0, 180.0, SmilePaint) ]
  }

  /** One eye label of the inner `FaceGraphic`: it needs only the probability, not the landmark. */
  function InnerEyeLabel(f: Face, b: FaceGraphic.Box, eye: FaceGraphic.Eye): seq<Primitive>
  {
    match FaceGraphic.EyeOpenProbability(f, eye)
    case None => []
    case Some(prob) => [DrawText(FaceGraphic.EyeLabel(eye, prob), b.left, b.bottom + FaceGraphic.EyeLabelOffset(eye), IdPaint)]
  }

  /** `GraphicOverlay.FaceGraphic.draw`; `None` is a null face. */
  function InnerDraw(face: Option<Face>, p: Projection): seq<Primitive>
  {
    match face
    case None => []
    case Some(f) =>
      var b := FaceGraphic.FaceBox(f, p);
      [DrawRect(b.left, b.top, b.right, b.bottom, BoxPaint)]
      + FaceGraphic.LandmarkDots(f, FaceGraphic.DrawnLandmarks, p)
      + InnerSmilePart(f, b)
      + InnerEyeLabel(f, b, FaceGraphic.Left)
      + InnerEyeLabel(f, b, FaceGraphic.Right)
  }

  /** The graphics the overlay can hold: its own inner face graphic or the standalone one. */
  datatype Graphic = InnerFace(face: Option<Face>) | StandaloneFace(face: Option<Face>)

  function DrawGraphic(g: Graphic, p: Projection): seq<Primitive>
  {
    match g
    case InnerFace(face) => InnerDraw(face, p)
    case StandaloneFace(face) => FaceGraphic.Draw(face, p)
  }

  /** Drawing a graphic against a fixed projection. */
  function Painter(p: Projection): Graphic -> seq<Primitive>
  {
    g => DrawGraphic(g, p)
  }

  /** The drawings of `gs` by `draw`, one after another in list order. */
  function Paint(gs: seq<Graphic>, draw: Graphic -> seq<Primitive>): seq<Primitive>
  {
    if gs == [] then [] else Paint(gs[..|gs| - 1], draw) + draw(gs[|gs| - 1])
  }

  /** What `onDraw` paints: every graphic in the order it was added, each drawn in full. */
  function Scene(gs: seq<Graphic>, p: Projection): seq<Primitive>
  {
    Paint(gs, Painter(p))
  }

  lemma {:induction false} PaintAppend(a: seq<Graphic>, b: seq<Graphic>, draw: Graphic -> seq<Primitive>)
    ensures Paint(a + b, draw) == Paint(a, draw) + Paint(b, draw)
  {
    if b == [] {
      assert a + b == a;
    } else {
      var init := b[..|b| - 1];
      assert (a + b)[..|a + b| - 1] == a + init;
      assert (a + b)[|a + b| - 1] == b[|b| - 1];
      PaintAppend(a, init, draw);
    }
  }

  /** Painting more graphics paints the earlier scene first, unchanged, and then the new ones. */
  lemma SceneAppend(a: seq<Graphic>, b: seq<Graphic>, p: Projection)
    ensures Scene(a + b, p) == Scene(a, p) + Scene(b, p)
  {
    PaintAppend(a, b, Painter(p));
  }

  /** The graphics `setFaces` adds: one inner face graphic per face, in the list's order. */
  function FaceGraphics(faces: seq<Face>): (gs: seq<Graphic>)
    ensures |gs| == |faces|
    ensures forall i :: 0 <= i < |faces| ==> gs[i] == InnerFace(Some(faces[i]))
  {
    seq(|faces|, i requires 0 <= i < |faces| => InnerFace(Some(faces[i])))
  }

  predicate IsBox(q: Primitive) { q.DrawRect? }

  predicate IsFacePositionDot(q: Primitive) { q.DrawCircle? && q.paint == FacePositionPaint }

  lemma CountOne(a: Primitive, keep: Primitive -> bool)
    ensures Count([a], keep) == FaceGraphic.Indicator(keep(a))
  {
    assert [a][..0] == [];
  }

  /**
   * Counts over the inner draw of a face: what follows the box is only
   * landmark dots, the smile pair and the eye labels.
   */
  lemma InnerCountSplit(f: Face, p: Projection, keep: Primitive -> bool)
    requires forall q: Primitive :: keep(q) ==> !q.DrawCircle?
    ensures var b := FaceGraphic.FaceBox(f, p);
      Count(InnerDraw(Some(f), p), keep) ==
        FaceGraphic.Indicator(keep(DrawRect(b.left, b.top, b.right, b.bottom, BoxPaint)))
        + Count(InnerSmilePart(f, b), keep)
        + Count(InnerEyeLabel(f, b, FaceGraphic.Left), keep) + Count(InnerEyeLabel(f, b, FaceGraphic.Right), keep)
  {
    var b := FaceGraphic.FaceBox(f, p);
    var head := [DrawRect(b.left, b.top, b.right, b.bottom, BoxPaint)];
    var dots := FaceGraphic.LandmarkDots(f, FaceGraphic.DrawnLandmarks, p);
    var smile := InnerSmilePart(f, b);
    var le := InnerEyeLabel(f, b, FaceGraphic.Left);
    var re := InnerEyeLabel(f, b, FaceGraphic.Right);
    CountOne(head[0], keep);
    FaceGraphic.DotsHaveNoOtherShapes(f, FaceGraphic.DrawnLandmarks, p, keep);
    CountAppend(head, dots, keep);
    CountAppend(head + dots, smile, keep);
    CountAppend(head + dots + smile, le, keep);
    CountAppend(head + dots + smile + le, re, keep);
  }

  /** An inner eye label is one text, present exactly when the eye's open probability is known. */
  lemma InnerEyeLabelCounts(f: Face, b: FaceGraphic.Box, eye: FaceGraphic.Eye)
    ensures Count(InnerEyeLabel(f, b, eye), IsBox) == 0
    ensures Count(InnerEyeLabel(f, b, eye), IsFacePositionDot) == 0
    ensures Count(InnerEyeLabel(f, b, eye), FaceGraphic.IsOval) == 0
    ensures Count(InnerEyeLabel(f, b, eye), FaceGraphic.IsArc) == 0
    ensures Count(InnerEyeLabel(f, b, eye), FaceGraphic.IsText) ==
      FaceGraphic.Indicator(FaceGraphic.EyeOpenProbability(f, eye).Some?)
  {
    var e := InnerEyeLabel(f, b, eye);
    if e != [] {
      CountOne(e[0], IsBox);
      CountOne(e[0], IsFacePositionDot);
      CountOne(e[0], FaceGraphic.IsOval);
      CountOne(e[0], FaceGraphic.IsArc);
      CountOne(e[0], FaceGraphic.IsText);
    }
  }

  /** The inner smile part is one label and one arc, present exactly when the smiling probability is known. */
  lemma InnerSmileCounts(f: Face, b: FaceGraphic.Box)
    ensures Count(InnerSmilePart(f, b), IsBox) == 0
    ensures Count(InnerSmilePart(f, b), IsFacePositionDot) == 0
    ensures Count(InnerSmilePart(f, b), FaceGraphic.IsOval) == 0
    ensures Count(InnerSmilePart(f, b), FaceGraphic.IsArc) == FaceGraphic.Indicator(f.smilingProbability.Some?)
    ensures Count(InnerSmilePart(f, b), FaceGraphic.IsText) == FaceGraphic.Indicator(f.smilingProbability.Some?)
  {
    var smile := InnerSmilePart(f, b);
    if smile != [] {
      FaceGraphic.CountPair(smile[0], smile[1], IsBox);
      FaceGraphic.CountPair(smile[0], smile[1], IsFacePositionDot);
      FaceGraphic.CountPair(smile[0], smile[1], FaceGraphic.IsOval);
      FaceGraphic.CountPair(smile[0], smile[1], FaceGraphic.IsArc);
      FaceGraphic.CountPair(smile[0], smile[1], FaceGraphic.IsText);
    }
  }

  /**
   * The inner graphic draws one box, no face-position dot and no eye
   * ellipse; one smile arc exactly when the smiling probability is known;
   * and one label per known probability, eye labels needing no landmark.
   */
  lemma InnerDrawCounts(f: Face, p: Projection)
    ensures Count(InnerDraw(Some(f), p), IsBox) == 1
    ensures Count(InnerDraw(Some(f), p), IsFacePositionDot) == 0
    ensures Count(InnerDraw(Some(f), p), FaceGraphic.IsOval) == 0
    ensures Count(InnerDraw(Some(f), p), FaceGraphic.IsArc) == FaceGraphic.Indicator(f.smilingProbability.Some?)
    ensures Count(InnerDraw(Some(f), p), FaceGraphic.IsText) ==
      FaceGraphic.Indicator(f.smilingProbability.Some?)
      + FaceGraphic.Indicator(f.leftEyeOpenProbability.Some?)
      + FaceGraphic.Indicator(f.rightEyeOpenProbability.Some?)
  {
    var b := FaceGraphic.FaceBox(f, p);
    InnerCountSplit(f, p, IsBox);
    InnerCountSplit(f, p, FaceGraphic.IsOval);
    InnerCountSplit(f, p, FaceGraphic.IsArc);
    InnerCountSplit(f, p, FaceGraphic.IsText);
    InnerSmileCounts(f, b);
    InnerEyeLabelCounts(f, b, FaceGraphic.Left);
    InnerEyeLabelCounts(f, b, FaceGraphic.Right);
    InnerHasNoFacePositionDot(f, p);
  }

  lemma InnerHasNoFacePositionDot(f: Face, p: Projection)
    ensures Count(InnerDraw(Some(f), p), IsFacePositionDot) == 0
  {
    var b := FaceGraphic.FaceBox(f, p);
    var head := [DrawRect(b.left, b.top, b.right, b.bottom, BoxPaint)];
    var dots := FaceGraphic.LandmarkDots(f, FaceGraphic.DrawnLandmarks, p);
    var smile := InnerSmilePart(f, b);
    var le := InnerEyeLabel(f, b, FaceGraphic.Left);
    var re := InnerEyeLabel(f, b, FaceGraphic.Right);
    CountOne(head[0], IsFacePositionDot);
    NoFacePositionDotAmongLandmarks(f, FaceGraphic.DrawnLandmarks, p);
    InnerEyeLabelCounts(f, b, FaceGraphic.Left);
    InnerEyeLabelCounts(f, b, FaceGraphic.Right);
    InnerSmileCounts(f, b);
    CountAppend(head, dots, IsFacePositionDot);
    CountAppend(head + dots, smile, IsFacePositionDot);
    CountAppend(head + dots + smile, le, IsFacePositionDot);
    CountAppend(head + dots + smile + le, re, IsFacePositionDot);
  }

  lemma {:induction false} NoFacePositionDotAmongLandmarks(f: Face, types: seq<LandmarkType>, p: Projection)
    ensures Count(FaceGraphic.LandmarkDots(f, types, p), IsFacePositionDot) == 0
  {
    if types != [] {
      var t := types[|types| - 1];
      var init := types[..|types| - 1];
      NoFacePositionDotAmongLandmarks(f, init, p);
      var last := if t in f.landmarks then [FaceGraphic.LandmarkDot(f, t, p)] else [];
      CountAppend(FaceGraphic.LandmarkDots(f, init, p), last, IsFacePositionDot);
      if last != [] {
        CountOne(last[0], IsFacePositionDot);
      }
    }
  }

  /**
   * Every label of the inner graphic sits where the standalone graphic puts
   * it: at the box's left edge, 40, 80 or 120 below the box bottom for
   * smile, left eye and right eye, showing the face's own probability.
   */
  lemma InnerLabelsStackBelowBox(f: Face, p: Projection)
    ensures forall q :: q in InnerDraw(Some(f), p) && q.DrawText? ==>
      FaceGraphic.LabelPlaced(f, FaceGraphic.FaceBox(f, p), q)
  {
    var b := FaceGraphic.FaceBox(f, p);
    FaceGraphic.LandmarkDotsArePresentLandmarks(f, FaceGraphic.DrawnLandmarks, p);
    var head := [DrawRect(b.left, b.top, b.right, b.bottom, BoxPaint)];
    var dots := FaceGraphic.LandmarkDots(f, FaceGraphic.DrawnLandmarks, p);
    var smile := InnerSmilePart(f, b);
    var le := InnerEyeLabel(f, b, FaceGraphic.Left);
    var re := InnerEyeLabel(f, b, FaceGraphic.Right);
    assert InnerDraw(Some(f), p) == head + dots + smile + le + re;
    forall q | q in InnerDraw(Some(f), p) && q.DrawText?
      ensures FaceGraphic.LabelPlaced(f, b, q)
    {
      if q in dots {
        assert false;
      } else if q in smile {
        assert q == smile[0];
      } else if q in le {
        assert q == le[0];
      } else if q in re {
        assert q == re[0];
      } else {
        assert false;
      }
    }
  }

  /**
   * The inner smile arc is the lower half of an ellipse centred on the box's
   * centre column 30 pixels above its bottom, 80% of the box width wide and
   * 0.2 * width * probability high.
   */
  lemma InnerSmileArcGeometry(f: Face, p: Projection)
    requires f.smilingProbability.Some?
    ensures var b := FaceGraphic.FaceBox(f, p);
      var prob := f.smilingProbability.value;
      var arc := InnerSmilePart(f, b)[1];
      && arc.DrawArc? && arc.paint == SmilePaint
      && arc.startAngle == 0.0 && arc.sweepAngle == 180.0
      && arc.left + arc.right == b.left + b.right
      && arc.top + arc.bottom == 2.0 * (b.bottom - 30.0)
      && arc.right - arc.left == 0.8 * (b.right - b.left)
      && arc.bottom - arc.top == 0.8 * (b.right - b.left) * 0.2 * prob
  {
  }

  /**
   * The inner and the standalone graphic agree on the box and on the
   * landmark dots, which both draw right after the box.
   */
  lemma InnerAndStandaloneShareBoxAndDots(f: Face, p: Projection)
    ensures var n := 1 + |FaceGraphic.LandmarkDots(f, FaceGraphic.DrawnLandmarks, p)|;
      var inner := InnerDraw(Some(f), p);
      var standalone := FaceGraphic.Draw(Some(f), p);
      && |inner| >= n && |standalone| >= n + 1
      && inner[0] == standalone[0]
      && inner[1..n] == standalone[2..n + 1]
  {
    var n := 1 + |FaceGraphic.LandmarkDots(f, FaceGraphic.DrawnLandmarks, p)|;
    var inner := InnerDraw(Some(f), p);
    var standalone := FaceGraphic.Draw(Some(f), p);
    assert inner[1..n] == FaceGraphic.LandmarkDots(f, FaceGraphic.DrawnLandmarks, p);
    assert standalone[2..n + 1] == FaceGraphic.LandmarkDots(f, FaceGraphic.DrawnLandmarks, p);
  }

  /** A scene of face graphics for a list of faces draws exactly one box per face. */
  lemma {:induction false} OneBoxPerFace(faces: seq<Face>, p: Projection)
    ensures Count(Scene(FaceGraphics(faces), p), IsBox) == |faces|
  {
    if faces != [] {
      var init := faces[..|faces| - 1];
      assert FaceGraphics(faces)[..|faces| - 1] == FaceGraphics(init);
      OneBoxPerFace(init, p);
      InnerDrawCounts(faces[|faces| - 1], p);
      assert Painter(p)(InnerFace(Some(faces[|faces| - 1]))) == InnerDraw(Some(faces[|faces| - 1]), p);
      CountAppend(Scene(FaceGraphics(init), p), InnerDraw(Some(faces[|faces| - 1]), p), IsBox);
    }
  }

  class GraphicOverlay {
    var graphics: seq<Graphic>
    /** The last face list handed to `setFaces`; `None` before the first. */
    var faces: Option<seq<Face>>
    var imageWidth: int
    var imageHeight: int
    var scaleX: real
    var scaleY: real
    var cameraFacing: int
    /** The view's laid-out size, `getWidth()` and `getHeight()`. */
    const width: int
    const height: int

    /** What graphics read from this overlay while they draw. */
    function Projection(): (p: OverlayGraphic.Projection)
      reads this
    {
      OverlayGraphic.Projection(width as real, scaleX, scaleY, cameraFacing)
    }

    /** A freshly laid-out overlay: no graphics, zero scales, facing 1. */
    constructor (viewWidth: int, viewHeight: int)
      requires viewWidth >= 0 && viewHeight >= 0
      ensures width == viewWidth && height == viewHeight
      ensures graphics == [] && faces == None
      ensures imageWidth == 0 && imageHeight == 0 && scaleX == 0.0 && scaleY == 0.0
      ensures cameraFacing == MirroredFacing
    {
      width, height := viewWidth, viewHeight;
      graphics, faces := [], None;
      imageWidth, imageHeight := 0, 0;
      scaleX, scaleY := 0.0, 0.0;
      cameraFacing := MirroredFacing;
    }

    method SetCameraFacing(facing: int)
      modifies this
      ensures cameraFacing == facing
      ensures graphics == old(graphics) && faces == old(faces)
      ensures imageWidth == old(imageWidth) && imageHeight == old(imageHeight)
      ensures scaleX == old(scaleX) && scaleY == old(scaleY)
    {
      cameraFacing := facing;
    }

    method Clear()
      modifies this
      ensures graphics == []
      ensures faces == old(faces) && cameraFacing == old(cameraFacing)
      ensures imageWidth == old(imageWidth) && imageHeight == old(imageHeight)
      ensures scaleX == old(scaleX) && scaleY == old(scaleY)
    {
      graphics := [];
    }

    method Add(g: Graphic)
      modifies this
      ensures graphics == old(graphics) + [g]
      ensures faces == old(faces) && cameraFacing == old(cameraFacing)
      ensures imageWidth == old(imageWidth) && imageHeight == old(imageHeight)
      ensures scaleX == old(scaleX) && scaleY == old(scaleY)
    {
      graphics := graphics + [g];
    }

    /**
     * `setFaces`: drops the old graphics, records the image size, derives
     * the scales from the view size, and adds one inner face graphic per
     * face in order.
     */
    method SetFaces(newFaces: seq<Face>, imgWidth: int, imgHeight: int)
      requires imgWidth != 0 && imgHeight != 0
      modifies this
      ensures graphics == FaceGraphics(newFaces)
      ensures faces == Some(newFaces)
      ensures imageWidth == imgWidth && imageHeight == imgHeight
      ensures scaleX == width as real / imgWidth as real && scaleY == height as real / imgHeight as real
      ensures cameraFacing == old(cameraFacing)
      ensures Count(Scene(graphics, Projection()), IsBox) == |newFaces|
    {
      Clear();
      faces := Some(newFaces);
      imageWidth, imageHeight := imgWidth, imgHeight;
      scaleX := width as real / imgWidth as real;
      scaleY := height as real / imgHeight as real;
      var i := 0;
      while i < |newFaces|
        invariant 0 <= i <= |newFaces|
        invariant graphics == FaceGraphics(newFaces[..i])
        invariant faces == Some(newFaces) && imageWidth == imgWidth && imageHeight == imgHeight
        invariant scaleX == width as real / imgWidth as real && scaleY == height as real / imgHeight as real
        invariant cameraFacing == old(cameraFacing)
      {
        Add(InnerFace(Some(newFaces[i])));
        assert newFaces[..i + 1] == newFaces[..i] + [newFaces[i]];
        i := i + 1;
      }
      assert newFaces[..i] == newFaces;
      OneBoxPerFace(newFaces, Projection());
    }

    /** `onDraw`: every graphic draws itself, in the order the graphics were added. */
    method OnDraw() returns (painted: seq<Primitive>)
      ensures painted == Scene(graphics, Projection())
    {
      painted := [];
      var i := 0;
      while i < |graphics|
        invariant 0 <= i <= |graphics|
        invariant painted == Scene(graphics[..i], Projection())
      {
        assert graphics[..i + 1][..i] == graphics[..i];
        painted := painted + DrawGraphic(graphics[i], Projection());
        i := i + 1;
      }
      assert graphics[..i] == graphics;
    }
  }
}

=== FILE: nullable.dfy ===
/** Java references that may be null are modelled as `Option`. */
module Nullable {

  datatype Option<+T> = None | Some(value: T)
}

=== FILE: overlay_graphic.dfy ===
/**
 * The coordinate helpers of `GraphicOverlay.Graphic`: a graphic reads the
 * overlay's width, its two scale factors and its camera-facing flag, scales
 * image coordinates into the view and, for facing 1, mirrors x.
 */
module OverlayGraphic {

  /** CameraX's `CameraSelector.LENS_FACING_FRONT` and `LENS_FACING_BACK`. */
  const LensFacingFront: int := 0
  const LensFacingBack: int := 1

  /** The facing value for which `translateX` mirrors, and the overlay's initial facing. */
  const MirroredFacing: int := 1

  /** What a graphic reads from its overlay while drawing. */
  datatype Projection = Projection(viewWidth: real, scaleX: real, scaleY: real, cameraFacing: int)

  function TranslateX(p: Projection, x: real): real
  {
    if p.cameraFacing == MirroredFacing then p.viewWidth - x * p.scaleX else x * p.scaleX
  }

  function TranslateY(p: Projection, y: real): real
  {
    y * p.scaleY
  }

  function ScaleX(p: Projection, horizontal: real): real
  {
    horizontal * p.scaleX
  }

  function ScaleY(p: Projection, vertical: real): real
  {
    vertical * p.scaleY
  }

  /** The same overlay seen with another facing. */
  function WithFacing(p: Projection, facing: int): (q: Projection)
    ensures q.viewWidth == p.viewWidth && q.scaleX == p.scaleX && q.scaleY == p.scaleY
    ensures q.cameraFacing == facing
  {
    p.(cameraFacing := facing)
  }

  /**
   * Mirroring reflects x about the middle of the view: the mirrored and the
   * unmirrored position of a point add up to the view width.
   */
  lemma MirroredAndPlainSumToWidth(p: Projection, x: real, other: int)
    requires other != MirroredFacing
    ensures TranslateX(WithFacing(p, MirroredFacing), x) + TranslateX(WithFacing(p, other), x) == p.viewWidth
  {
  }

  /** With a positive scale, the mirrored x reverses left-to-right order and the plain one keeps it. */
  lemma TranslateXOrder(p: Projection, x1: real, x2: real)
    requires p.scaleX > 0.0 && x1 < x2
    ensures p.cameraFacing == MirroredFacing ==> TranslateX(p, x1) > TranslateX(p, x2)
    ensures p.cameraFacing != MirroredFacing ==> TranslateX(p, x1) < TranslateX(p, x2)
  {
  }

  /** Only `translateX` depends on the facing. */
  lemma OnlyTranslateXDependsOnFacing(p: Projection, facing: int, v: real)
    ensures TranslateY(WithFacing(p, facing), v) == TranslateY(p, v)
    ensures ScaleX(WithFacing(p, facing), v) == ScaleX(p, v)
    ensures ScaleY(WithFacing(p, facing), v) == ScaleY(p, v)
  {
  }

  /**
   * With CameraX's constants the front lens (0) is drawn unmirrored and the
   * back lens (1) mirrored.
   */
  lemma FrontLensIsNotMirrored(p: Projection, x: real)
    ensures TranslateX(WithFacing(p, LensFacingFront), x) == ScaleX(p, x)
    ensures TranslateX(WithFacing(p, LensFacingBack), x) == p.viewWidth - ScaleX(p, x)
  {
  }
}

=== FILE: strings.dfy ===
/**
 * The few `java.lang.String` operations the barcode screen relies on,
 * restricted to what they do on ASCII text.
 */
module Strings {

  predicate IsAsciiDigit(c: char) { '0' <= c <= '9' }

  predicate IsAsciiLower(c: char) { 'a' <= c <= 'z' }

  predicate IsAsciiUpper(c: char) { 'A' <= c <= 'Z' }

  /** `Character.toLowerCase` on ASCII letters; every other character is kept. */
  function LowerChar(c: char): (r: char)
    ensures !IsAsciiUpper(r)
    ensures IsAsciiUpper(c) ==> IsAsciiLower(r)
  {
    if IsAsciiUpper(c) then (c as int + 32) as char else c
  }

  /** `String.toLowerCase`, character by character. */
  function ToLower(s: string): (r: string)
    ensures |r| == |s|
    ensures forall i :: 0 <= i < |s| ==> r[i] == LowerChar(s[i])
  {
    if s == [] then [] else [LowerChar(s[0])] + ToLower(s[1..])
  }

  predicate StartsWith(s: string, prefix: string)
  {
    |prefix| <= |s| && s[..|prefix|] == prefix
  }

  predicate EndsWith(s: string, suffix: string)
  {
    |suffix| <= |s| && s[|s| - |suffix|..] == suffix
  }

  /** A string without upper-case ASCII letters is its own lower-case form. */
  lemma {:induction false} ToLowerOfLower(s: string)
    requires forall i :: 0 <= i < |s| ==> !IsAsciiUpper(s[i])
    ensures ToLower(s) == s
  {
    if s != [] {
      ToLowerOfLower(s[1..]);
    }
  }

  /** Lower-casing a concatenation lower-cases each part. */
  lemma ToLowerAppend(a: string, b: string)
    ensures ToLower(a + b) == ToLower(a) + ToLower(b)
  {
    assert forall i :: 0 <= i < |a + b| ==> ToLower(a + b)[i] == (ToLower(a) + ToLower(b))[i];
  }

  /** `String.trim` drops every leading and trailing character whose code is at most U+0020. */
  predicate IsTrimmed(c: char) { c <= ' ' }

  /** Index of the first kept character at or after `i`. */
  function KeptFrom(s: string, i: nat): (k: nat)
    requires i <= |s|
    ensures i <= k <= |s|
    ensures forall j :: i <= j < k ==> IsTrimmed(s[j])
    ensures k < |s| ==> !IsTrimmed(s[k])
    decreases |s| - i
  {
    if i == |s| || !IsTrimmed(s[i]) then i else KeptFrom(s, i + 1)
  }

  /** One past the last kept character at or before `k`, never below `lo`. */
  function KeptUntil(s: string, lo: nat, k: nat): (e: nat)
    requires lo <= k <= |s|
    ensures lo <= e <= k
    ensures forall j :: e <= j < k ==> IsTrimmed(s[j])
    ensures e > lo ==> !IsTrimmed(s[e - 1])
  {
    if k == lo || !IsTrimmed(s[k - 1]) then k else KeptUntil(s, lo, k - 1)
  }

  /** `String.trim`. */
  function Trim(s: string): (r: string)
    ensures |r| <= |s|
    ensures r == [] <==> forall j :: 0 <= j < |s| ==> IsTrimmed(s[j])
    ensures r != [] ==> !IsTrimmed(r[0]) && !IsTrimmed(r[|r| - 1])
    ensures exists b, e :: && 0 <= b <= e <= |s| && r == s[b..e]
                           && (forall j :: 0 <= j < b ==> IsTrimmed(s[j]))
                           && (forall j :: e <= j < |s| ==> IsTrimmed(s[j]))
  {
    var b := KeptFrom(s, 0);
    var e := KeptUntil(s, b, |s|);
    assert b < |s| ==> b < e;
    s[b..e]
  }

  /** Trimming twice is trimming once. */
  lemma TrimIsIdempotent(s: string)
    ensures Trim(Trim(s)) == Trim(s)
  {
    var t := Trim(s);
    if t != [] {
      assert KeptFrom(t, 0) == 0;
      assert KeptUntil(t, 0, |t|) == |t|;
    }
  }
}

=== FILE: text_detection.dfy ===
/**
 * The text screen (`TextDetection`): a capture button, a status line and a
 * `TextOverlay`. A capture yields a frame; recognition of that frame sets
 * the status and hands the recognised words to the overlay; every frame is
 * closed once, whichever way its processing ends.
 */
module TextScreen {
  import opened Nullable
  import opened Vision
  import opened TextOverlayView

  const ProcessingStatus := "Processing image..."
  const NoTextStatus := "No text detected in image."
  const CaptureFailedStatus := "Failed to capture image."
  const RecognitionFailedStatus := "Failed to recognize text."
  const ConversionFailedStatus := "Error processing image."
  const PermissionRequiredStatus := "Camera permission is required to use this feature."

  /** The status line after a successful recognition: the text itself, or a notice when it is empty. */
  function StatusFor(text: string): (status: string)
    ensures status != []
    ensures text != [] ==> status == text
    ensures text == [] ==> status == NoTextStatus
  {
    if text == [] then NoTextStatus else text
  }

  /** The elements of `lines`, line after line. */
  function LineElements(lines: seq<TextLine>): seq<TextElement>
  {
    if lines == [] then [] else LineElements(lines[..|lines| - 1]) + lines[|lines| - 1].elements
  }

  /** `allElements`: the elements of every line of every block, block after block. */
  function AllElements(blocks: seq<TextBlock>): seq<TextElement>
  {
    if blocks == [] then [] else AllElements(blocks[..|blocks| - 1]) + LineElements(blocks[|blocks| - 1].lines)
  }

  /** The sum of the line sizes of `lines`. */
  function LineSizes(lines: seq<TextLine>): nat
  {
    if lines == [] then 0 else LineSizes(lines[..|lines| - 1]) + |lines[|lines| - 1].elements|
  }

  /** The sum of the line sizes over all blocks. */
  function ElementCount(blocks: seq<TextBlock>): nat
  {
    if blocks == [] then 0 else ElementCount(blocks[..|blocks| - 1]) + LineSizes(blocks[|blocks| - 1].lines)
  }

  lemma {:induction false} LineElementsLength(lines: seq<TextLine>)
    ensures |LineElements(lines)| == LineSizes(lines)
  {
    if lines != [] {
      LineElementsLength(lines[..|lines| - 1]);
    }
  }

  /** The flattened list is exactly as long as the sum of all line sizes. */
  lemma {:induction false} AllElementsLength(blocks: seq<TextBlock>)
    ensures |AllElements(blocks)| == ElementCount(blocks)
  {
    if blocks != [] {
      AllElementsLength(blocks[..|blocks| - 1]);
      LineElementsLength(blocks[|blocks| - 1].lines);
    }
  }

  /** An element is in a line list's flattening exactly when it is in one of its lines. */
  lemma {:induction false} LineElementsMembers(lines: seq<TextLine>, e: TextElement)
    ensures e in LineElements(lines) <==> exists j :: 0 <= j < |lines| && e in lines[j].elements
  {
    if lines != [] {
      var init := lines[..|lines| - 1];
      LineElementsMembers(init, e);
      if e in LineElements(init) {
        var j :| 0 <= j < |init| && e in init[j].elements;
        assert lines[j] == init[j];
      }
      if exists j :: 0 <= j < |lines| && e in lines[j].elements {
        var j :| 0 <= j < |lines| && e in lines[j].elements;
        if j < |init| {
          assert init[j] == lines[j];
        }
      }
    }
  }

  /** An element is in `allElements` exactly when it is in some line of some block. */
  lemma {:induction false} AllElementsMembers(blocks: seq<TextBlock>, e: TextElement)
    ensures e in AllElements(blocks) <==>
      exists i, j :: 0 <= i < |blocks| && 0 <= j < |blocks[i].lines| && e in blocks[i].lines[j].elements
  {
    if blocks != [] {
      var init := blocks[..|blocks| - 1];
      var last := blocks[|blocks| - 1];
      AllElementsMembers(init, e);
      LineElementsMembers(last.lines, e);
      if e in AllElements(init) {
        var i, j :| 0 <= i < |init| && 0 <= j < |init[i].lines| && e in init[i].lines[j].elements;
        assert blocks[i] == init[i];
      }
      if exists i, j :: 0 <= i < |blocks| && 0 <= j < |blocks[i].lines| && e in blocks[i].lines[j].elements {
        var i, j :| 0 <= i < |blocks| && 0 <= j < |blocks[i].lines| && e in blocks[i].lines[j].elements;
        if i < |init| {
          assert init[i] == blocks[i];
        }
      }
    }
  }

  /** Flattening more blocks keeps the earlier elements first, in their order. */
  lemma {:induction false} AllElementsAppend(a: seq<TextBlock>, b: seq<TextBlock>)
    ensures AllElements(a + b) == AllElements(a) + AllElements(b)
  {
    if b == [] {
      assert a + b == a;
    } else {
      assert (a + b)[..|a + b| - 1] == a + b[..|b| - 1];
      assert (a + b)[|a + b| - 1] == b[|b| - 1];
      AllElementsAppend(a, b[..|b| - 1]);
    }
  }

  /** The nested loops of `processImage` that gather `allElements` with `addAll`. */
  method CollectElements(blocks: seq<TextBlock>) returns (allElements: seq<TextElement>)
    ensures allElements == AllElements(blocks)
    ensures |allElements| == ElementCount(blocks)
  {
    allElements := [];
    var i := 0;
    while i < |blocks|
      invariant 0 <= i <= |blocks|
      invariant allElements == AllElements(blocks[..i])
    {
      var lines := blocks[i].lines;
      var j := 0;
      while j < |lines|
        invariant 0 <= j <= |lines|
        invariant allElements == AllElements(blocks[..i]) + LineElements(lines[..j])
      {
        assert lines[..j + 1][..j] == lines[..j];
        allElements := allElements + lines[j].elements;
        j := j + 1;
      }
      assert lines[..j] == lines;
      assert blocks[..i + 1][..i] == blocks[..i];
      i := i + 1;
    }
    assert blocks[..i] == blocks;
    AllElementsLength(blocks);
  }

  class TextDetection {
    /** `imageCapture != null`: the camera has been bound. */
    var cameraBound: bool
    var buttonEnabled: bool
    var status: string
    const overlay: TextOverlay
    /** Frames whose recognition is running, with the `InputImage` built from each. */
    var recognizing: map<FrameId, InputImage>
    /** Every `imageProxy.close()`, in order. */
    var closed: seq<FrameId>

    /** The overlay is consistent, no frame is closed twice, and no frame being recognised is closed yet. */
    ghost predicate Valid()
      reads this, overlay
    {
      && overlay.Valid()
      && NoRepeats(closed)
      && (forall f :: f in recognizing ==> f !in closed)
    }

    /** `onCreate`: the camera is not bound yet and the overlay is empty. */
    constructor (initialStatus: string)
      ensures Valid()
      ensures !cameraBound && buttonEnabled && status == initialStatus
      ensures recognizing == map[] && closed == []
      ensures overlay.elements == None
      ensures fresh(overlay)
    {
      cameraBound := false;
      buttonEnabled := true;
      status := initialStatus;
      overlay := new TextOverlay();
      recognizing := map[];
      closed := [];
    }

    /** `onRequestPermissionsResult`: a refusal shows the notice; a grant leaves the camera to bind later. */
    method OnPermissionResult(granted: bool)
      requires Valid()
      modifies this
      ensures Valid()
      ensures status == if granted then old(status) else PermissionRequiredStatus
      ensures cameraBound == old(cameraBound) && buttonEnabled == old(buttonEnabled)
      ensures recognizing == old(recognizing) && closed == old(closed)
    {
      if !granted {
        status := PermissionRequiredStatus;
      }
    }

    /** The camera provider's listener has bound the capture use case. */
    method OnCameraBound()
      requires Valid()
      modifies this
      ensures Valid()
      ensures cameraBound
      ensures status == old(status) && buttonEnabled == old(buttonEnabled)
      ensures recognizing == old(recognizing) && closed == old(closed)
    {
      cameraBound := true;
    }

    /**
     * `takePhoto`: without a bound camera nothing happens; otherwise the
     * button is disabled, the status says the image is being processed and
     * the overlay's words are cleared.
     */
    method TakePhoto() returns (started: bool)
      requires Valid()
      modifies this, overlay
      ensures Valid()
      ensures started == old(cameraBound)
      ensures !started ==> buttonEnabled == old(buttonEnabled) && status == old(status)
      ensures !started ==> unchanged(overlay)
      ensures started ==> !buttonEnabled && status == ProcessingStatus && overlay.elements == Some([])
      ensures started ==>
        && overlay.imageWidth == old(overlay.imageWidth) && overlay.imageHeight == old(overlay.imageHeight)
        && overlay.rotation == old(overlay.rotation)
        && overlay.width == old(overlay.width) && overlay.height == old(overlay.height)
        && overlay.CurrentTransform() ==
          if overlay.imageWidth > 0 && overlay.imageHeight > 0
          then Recalculated(old(overlay.CurrentTransform()), overlay.width, overlay.height,
                            overlay.imageWidth, overlay.imageHeight, overlay.rotation)
          else old(overlay.CurrentTransform())
      ensures cameraBound == old(cameraBound) && recognizing == old(recognizing) && closed == old(closed)
    {
      if !cameraBound {
        return false;
      }
      buttonEnabled := false;
      status := ProcessingStatus;
      overlay.SetElements([]);
      started := true;
    }

    /**
     * `onCaptureSuccess`: `processImage` either fails to build the
     * `InputImage` (`conversion` is `None`), which closes the frame at once,
     * or starts recognition; the button is re-enabled either way.
     */
    method OnCaptureSuccess(proxy: FrameId, conversion: Option<InputImage>)
      requires Valid()
      requires proxy !in recognizing && proxy !in closed
      modifies this
      ensures Valid()
      ensures buttonEnabled
      ensures conversion.None? ==>
        status == ConversionFailedStatus && closed == old(closed) + [proxy] && recognizing == old(recognizing)
      ensures conversion.Some? ==>
        status == old(status) && closed == old(closed) && recognizing == old(recognizing)[proxy := conversion.value]
      ensures cameraBound == old(cameraBound)
    {
      match conversion {
        case None =>
          status := ConversionFailedStatus;
          closed := closed + [proxy];
        case Some(image) =>
          recognizing := recognizing[proxy := image];
      }
      buttonEnabled := true;
    }

    /** `onError` of the capture: a notice, and the button back on. */
    method OnCaptureError()
      requires Valid()
      modifies this
      ensures Valid()
      ensures status == CaptureFailedStatus && buttonEnabled
      ensures cameraBound == old(cameraBound) && recognizing == old(recognizing) && closed == old(closed)
    {
      status := CaptureFailedStatus;
      buttonEnabled := true;
    }

    /**
     * Recognition succeeded on `proxy`: the status shows the text (or the
     * notice for none), the overlay gets every element with the image's
     * width, height and rotation, and the frame is closed.
     */
    method OnRecognitionSuccess(proxy: FrameId, result: RecognizedText)
      requires Valid()
      requires proxy in recognizing
      modifies this, overlay
      ensures Valid()
      ensures status == StatusFor(result.text)
      ensures var image := old(recognizing)[proxy];
        && overlay.elements == Some(AllElements(result.textBlocks))
        && overlay.imageWidth == image.width && overlay.imageHeight == image.height
        && overlay.rotation == image.rotationDegrees
        && overlay.CurrentTransform() ==
          Recalculated(old(overlay.CurrentTransform()), overlay.width, overlay.height,
                       image.width, image.height, image.rotationDegrees)
      ensures overlay.width == old(overlay.width) && overlay.height == old(overlay.height)
      ensures closed == old(closed) + [proxy]
      ensures recognizing == old(recognizing) - {proxy}
      ensures cameraBound == old(cameraBound) && buttonEnabled == old(buttonEnabled)
    {
      var image := recognizing[proxy];
      status := StatusFor(result.text);
      var allElements := CollectElements(result.textBlocks);
      overlay.SetElementsWithImage(allElements, image.width, image.height, image.rotationDegrees);
      closed := closed + [proxy];
      recognizing := recognizing - {proxy};
    }

    /** Recognition failed on `proxy`: a notice, the overlay cleared, and the frame closed. */
    method OnRecognitionFailure(proxy: FrameId)
      requires Valid()
      requires proxy in recognizing
      modifies this, overlay
      ensures Valid()
      ensures status == RecognitionFailedStatus && overlay.elements == Some([])
      ensures
        && overlay.imageWidth == old(overlay.imageWidth) && overlay.imageHeight == old(overlay.imageHeight)
        && overlay.rotation == old(overlay.rotation)
        && overlay.width == old(overlay.width) && overlay.height == old(overlay.height)
        && overlay.CurrentTransform() ==
          if overlay.imageWidth > 0 && overlay.imageHeight > 0
          then Recalculated(old(overlay.CurrentTransform()), overlay.width, overlay.height,
                            overlay.imageWidth, overlay.imageHeight, overlay.rotation)
          else old(overlay.CurrentTransform())
      ensures closed == old(closed) + [proxy]
      ensures recognizing == old(recognizing) - {proxy}
      ensures cameraBound == old(cameraBound) && buttonEnabled == old(buttonEnabled)
    {
      status := RecognitionFailedStatus;
      overlay.SetElements([]);
      closed := closed + [proxy];
      recognizing := recognizing - {proxy};
    }
  }
}

=== FILE: text_overlay.dfy ===
/**
 * `TextOverlay`: the view that draws recognised words over the captured
 * picture. The picture is letterboxed into the view (uniform scale, centred)
 * and each word's box is mapped through the frame's rotation, the scale and
 * the translation, then truncated to whole pixels.
 */
module TextOverlayView {
  import opened Nullable
  import opened Vision

  /** The four numbers `calculateTransformationMatrix` produces. */
  datatype Transform = Transform(scaleX: real, scaleY: real, translationX: real, translationY: real)

  /** The picture's size once upright: width and height swap for a quarter turn. */
  function RotatedSize(imageWidth: int, imageHeight: int, rotation: int): (size: (int, int))
    ensures rotation == 90 || rotation == 270 ==> size == (imageHeight, imageWidth)
    ensures !(rotation == 90 || rotation == 270) ==> size == (imageWidth, imageHeight)
  {
    if rotation == 90 || rotation == 270 then (imageHeight, imageWidth) else (imageWidth, imageHeight)
  }

  /**
   * `calculateTransformationMatrix`: nothing when any size is zero;
   * otherwise the scale that fits the upright picture to the view's width
   * (when the picture is relatively wider) or height, and the translation
   * that centres it on the other axis.
   */
  function Letterbox(viewWidth: int, viewHeight: int, imageWidth: int, imageHeight: int, rotation: int): (r: Option<Transform>)
    ensures r.None? <==> (viewWidth == 0 || viewHeight == 0 || imageWidth == 0 || imageHeight == 0)
    ensures r.Some? ==> r.value.scaleX == r.value.scaleY
  {
    if viewWidth == 0 || viewHeight == 0 || imageWidth == 0 || imageHeight == 0 then None
    else
      var (rw, rh) := RotatedSize(imageWidth, imageHeight, rotation);
      Some(Fit(viewWidth, viewHeight, rw, rh))
  }

  /** The uniform scale and centring offsets for a picture already turned upright. */
  function Fit(viewWidth: int, viewHeight: int, rotatedWidth: int, rotatedHeight: int): (t: Transform)
    requires viewWidth != 0 && viewHeight != 0 && rotatedWidth != 0 && rotatedHeight != 0
    ensures t.scaleX == t.scaleY
  {
    var imageAspect := rotatedWidth as real / rotatedHeight as real;
    var viewAspect := viewWidth as real / viewHeight as real;
    if imageAspect > viewAspect then
      var s := viewWidth as real / rotatedWidth as real;
      Transform(s, s, 0.0, (viewHeight as real - rotatedHeight as real * s) / 2.0)
    else
      var s := viewHeight as real / rotatedHeight as real;
      Transform(s, s, (viewWidth as real - rotatedWidth as real * s) / 2.0, 0.0)
  }

  /** A picture of `w` by `h` scaled by `s` and moved by `(tx, ty)` lies centred inside a view of `vw` by `vh`. */
  ghost predicate CentredInside(vw: real, vh: real, w: real, h: real, t: Transform)
  {
    && t.scaleX == t.scaleY && t.scaleX > 0.0
    && t.translationX >= 0.0 && t.translationY >= 0.0
    && 2.0 * t.translationX + w * t.scaleX == vw
    && 2.0 * t.translationY + h * t.scaleY == vh
  }

  lemma AspectCompare(rw: real, rh: real, vw: real, vh: real)
    requires rw > 0.0 && rh > 0.0 && vw > 0.0 && vh > 0.0
    ensures (rw / rh > vw / vh) <==> (rw * vh > vw * rh)
  {
    var k := rh * vh;
    assert k > 0.0;
    assert (rw / rh) * k == rw * vh;
    assert (vw / vh) * k == vw * rh;
    if rw / rh > vw / vh {
      assert (rw / rh) * k > (vw / vh) * k;
    }
    if rw * vh > vw * rh {
      assert (rw / rh) * k > (vw / vh) * k;
    }
  }

  lemma ScaledSide(a: real, b: real, c: real, d: real)
    requires a > 0.0 && c > 0.0
    ensures b * (c / a) <= d <==> b * c <= d * a
    ensures a * (c / a) == c
  {
    assert b * (c / a) * a == b * c;
    if b * (c / a) <= d {
      assert b * (c / a) * a <= d * a;
    }
    if b * c <= d * a {
      assert b * (c / a) * a <= d * a;
    }
  }

  /** `Fit` letterboxes: uniform positive scale, one axis filled, the other fitted, both centred. */
  lemma FitFits(viewWidth: int, viewHeight: int, rotatedWidth: int, rotatedHeight: int)
    requires viewWidth > 0 && viewHeight > 0 && rotatedWidth > 0 && rotatedHeight > 0
    ensures var t := Fit(viewWidth, viewHeight, rotatedWidth, rotatedHeight);
      var w, h, vw, vh := rotatedWidth as real, rotatedHeight as real, viewWidth as real, viewHeight as real;
      && w * t.scaleX <= vw && h * t.scaleY <= vh
      && (w * t.scaleX == vw || h * t.scaleY == vh)
      && (t.translationX == 0.0 || t.translationY == 0.0)
      && CentredInside(vw, vh, w, h, t)
  {
    var w, h, vw, vh := rotatedWidth as real, rotatedHeight as real, viewWidth as real, viewHeight as real;
    var t := Fit(viewWidth, viewHeight, rotatedWidth, rotatedHeight);
    AspectCompare(w, h, vw, vh);
    if w / h > vw / vh {
      assert t == Transform(vw / w, vw / w, 0.0, (vh - h * (vw / w)) / 2.0);
      ScaledSide(w, h, vw, vh);
    } else {
      assert t == Transform(vh / h, vh / h, (vw - w * (vh / h)) / 2.0, 0.0);
      ScaledSide(h, w, vh, vw);
    }
  }

  /**
   * With positive sizes the picture keeps its aspect ratio, fills the view
   * on one axis, fits inside it on the other, and is centred on both: the
   * two margins on each axis are equal and not negative.
   */
  lemma LetterboxFits(viewWidth: int, viewHeight: int, imageWidth: int, imageHeight: int, rotation: int)
    requires viewWidth > 0 && viewHeight > 0 && imageWidth > 0 && imageHeight > 0
    ensures var t := Letterbox(viewWidth, viewHeight, imageWidth, imageHeight, rotation).value;
      var (rw, rh) := RotatedSize(imageWidth, imageHeight, rotation);
      && t.scaleX == t.scaleY && t.scaleX > 0.0
      && rw as real * t.scaleX <= viewWidth as real && rh as real * t.scaleY <= viewHeight as real
      && (rw as real * t.scaleX == viewWidth as real || rh as real * t.scaleY == viewHeight as real)
      && t.translationX >= 0.0 && t.translationY >= 0.0
      && 2.0 * t.translationX + rw as real * t.scaleX == viewWidth as real
      && 2.0 * t.translationY + rh as real * t.scaleY == viewHeight as real
      && (t.translationX == 0.0 || t.translationY == 0.0)
      && CentredInside(viewWidth as real, viewHeight as real, rw as real, rh as real, t)
  {
    var (rw, rh) := RotatedSize(imageWidth, imageHeight, rotation);
    FitFits(viewWidth, viewHeight, rw, rh);
  }

  /** What `mapX` / `mapY` read: the image size, the rotation and the current transform. */
  datatype Mapping = Mapping(imageWidth: int, imageHeight: int, rotation: int, t: Transform)

  /** The rotation step of `mapX`, as written: 90 flips about the image height, 180 about the width. */
  function RotateX(m: Mapping, x: real): real
  {
    match m.rotation
    case 90 => m.imageHeight as real - x
    case 180 => m.imageWidth as real - x
    case _ => x
  }

  /** The rotation step of `mapY`, as written: 180 flips about the image height, 270 about the width. */
  function RotateY(m: Mapping, y: real): real
  {
    match m.rotation
    case 180 => m.imageHeight as real - y
    case 270 => m.imageWidth as real - y
    case _ => y
  }

  /**
   * The rotation step of `mapX` and `mapY` for each rotation: 90 gives
   * `(ih - x, y)`, 180 gives `(iw - x, ih - y)`, 270 gives `(x, iw - y)` and
   * any other rotation leaves the point alone. Each step is a reflection or
   * the identity, so applying it twice gives the coordinate back.
   */
  lemma RotationSteps(m: Mapping, x: real, y: real)
    ensures m.rotation == 90 ==> RotateX(m, x) == m.imageHeight as real - x && RotateY(m, y) == y
    ensures m.rotation == 180 ==> RotateX(m, x) == m.imageWidth as real - x && RotateY(m, y) == m.imageHeight as real - y
    ensures m.rotation == 270 ==> RotateX(m, x) == x && RotateY(m, y) == m.imageWidth as real - y
    ensures m.rotation !in {90, 180, 270} ==> RotateX(m, x) == x && RotateY(m, y) == y
    ensures RotateX(m, RotateX(m, x)) == x
    ensures RotateY(m, RotateY(m, y)) == y
  {
  }

  function MapX(m: Mapping, x: real): real
  {
    RotateX(m, x) * m.t.scaleX + m.t.translationX
  }

  function MapY(m: Mapping, y: real): real
  {
    RotateY(m, y) * m.t.scaleY + m.t.translationY
  }

  /** Java's `(int)` on a float: rounds toward zero. */
  function Truncate(r: real): (n: int)
    ensures r >= 0.0 ==> 0 <= n && n as real <= r < n as real + 1.0
    ensures r < 0.0 ==> n <= 0 && n as real - 1.0 < r <= n as real
  {
    if r >= 0.0 then r.Floor else -((-r).Floor)
  }

  /** `mapRect`: a null box stays null; otherwise each corner is mapped and truncated. */
  function MapRect(m: Mapping, box: Option<Rect>): (v: Option<Rect>)
    ensures v.None? <==> box.None?
  {
    match box
    case None => None
    case Some(r) =>
      Some(Rect(Truncate(MapX(m, r.left as real)), Truncate(MapY(m, r.top as real)),
                Truncate(MapX(m, r.right as real)), Truncate(MapY(m, r.bottom as real))))
  }

  /** A coordinate in `[0, size]` scaled and moved by a centring transform lands in `[0, view]`. */
  lemma PlacedCoordinateInView(c: real, mapped: real, size: real, scale: real, shift: real, view: real)
    requires mapped == c * scale + shift
    requires 0.0 <= c <= size && scale > 0.0 && shift >= 0.0 && 2.0 * shift + size * scale == view
    ensures shift <= mapped <= shift + size * scale
    ensures 0.0 <= mapped <= view
  {
    ScaleKeepsOrder(c, size, scale);
  }

  /**
   * For every rotation, a point of the upright picture (its width and height
   * swapped for 90 and 270, as the letterbox sees it) mapped under a transform
   * that centres that picture lands in the picture's place in the view, and so
   * in the view: each rotation step maps the upright picture onto itself.
   */
  lemma MappedPointsStayInPicture(viewWidth: int, viewHeight: int, m: Mapping, x: real, y: real)
    requires viewWidth > 0 && viewHeight > 0 && m.imageWidth > 0 && m.imageHeight > 0
    requires var size := RotatedSize(m.imageWidth, m.imageHeight, m.rotation);
      && CentredInside(viewWidth as real, viewHeight as real, size.0 as real, size.1 as real, m.t)
      && 0.0 <= x <= size.0 as real && 0.0 <= y <= size.1 as real
    ensures var size := RotatedSize(m.imageWidth, m.imageHeight, m.rotation);
      && m.t.translationX <= MapX(m, x) <= m.t.translationX + size.0 as real * m.t.scaleX
      && m.t.translationY <= MapY(m, y) <= m.t.translationY + size.1 as real * m.t.scaleY
    ensures 0.0 <= MapX(m, x) <= viewWidth as real && 0.0 <= MapY(m, y) <= viewHeight as real
  {
    var size := RotatedSize(m.imageWidth, m.imageHeight, m.rotation);
    RotationKeepsPicture(m, x, y);
    MappedXInView(viewWidth as real, m, x, size.0 as real);
    MappedYInView(viewHeight as real, m, y, size.1 as real);
  }

  lemma MappedXInView(view: real, m: Mapping, x: real, w: real)
    requires 0.0 <= RotateX(m, x) <= w
    requires m.t.scaleX > 0.0 && m.t.translationX >= 0.0 && 2.0 * m.t.translationX + w * m.t.scaleX == view
    ensures m.t.translationX <= MapX(m, x) <= m.t.translationX + w * m.t.scaleX
    ensures 0.0 <= MapX(m, x) <= view
  {
    PlacedCoordinateInView(RotateX(m, x), MapX(m, x), w, m.t.scaleX, m.t.translationX, view);
  }

  lemma MappedYInView(view: real, m: Mapping, y: real, h: real)
    requires 0.0 <= RotateY(m, y) <= h
    requires m.t.scaleY > 0.0 && m.t.translationY >= 0.0 && 2.0 * m.t.translationY + h * m.t.scaleY == view
    ensures m.t.translationY <= MapY(m, y) <= m.t.translationY + h * m.t.scaleY
    ensures 0.0 <= MapY(m, y) <= view
  {
    PlacedCoordinateInView(RotateY(m, y), MapY(m, y), h, m.t.scaleY, m.t.translationY, view);
  }

  /** Each rotation step maps the upright picture `[0, rw] x [0, rh]` onto itself. */
  lemma RotationKeepsPicture(m: Mapping, x: real, y: real)
    requires var size := RotatedSize(m.imageWidth, m.imageHeight, m.rotation);
      0.0 <= x <= size.0 as real && 0.0 <= y <= size.1 as real
    ensures var size := RotatedSize(m.imageWidth, m.imageHeight, m.rotation);
      0.0 <= RotateX(m, x) <= size.0 as real && 0.0 <= RotateY(m, y) <= size.1 as real
  {
  }

  /**
   * For every rotation, a box inside the upright picture, mapped under a
   * transform that centres that picture, becomes a rectangle whose four
   * truncated edges all lie inside the view.
   */
  lemma MapRectStaysInView(viewWidth: int, viewHeight: int, m: Mapping, box: Rect)
    requires viewWidth > 0 && viewHeight > 0 && m.imageWidth > 0 && m.imageHeight > 0
    requires var size := RotatedSize(m.imageWidth, m.imageHeight, m.rotation);
      && CentredInside(viewWidth as real, viewHeight as real, size.0 as real, size.1 as real, m.t)
      && 0 <= box.left <= size.0 && 0 <= box.right <= size.0
      && 0 <= box.top <= size.1 && 0 <= box.bottom <= size.1
    ensures var v := MapRect(m, Some(box)).value;
      && 0 <= v.left <= viewWidth && 0 <= v.right <= viewWidth
      && 0 <= v.top <= viewHeight && 0 <= v.bottom <= viewHeight
  {
    MappedPointsStayInPicture(viewWidth, viewHeight, m, box.left as real, box.top as real);
    MappedPointsStayInPicture(viewWidth, viewHeight, m, box.right as real, box.bottom as real);
    TruncateInRange(MapX(m, box.left as real), viewWidth);
    TruncateInRange(MapX(m, box.right as real), viewWidth);
    TruncateInRange(MapY(m, box.top as real), viewHeight);
    TruncateInRange(MapY(m, box.bottom as real), viewHeight);
  }

  lemma TruncateInRange(r: real, bound: int)
    requires 0.0 <= r <= bound as real
    ensures 0 <= Truncate(r) <= bound
  {
  }

  lemma ScaleKeepsOrder(a: real, b: real, s: real)
    requires 0.0 <= a <= b && s > 0.0
    ensures 0.0 <= a * s <= b * s
  {
  }

  /**
   * Under a positive scale, rotation 90 mirrors the picture left to right
   * and rotation 270 mirrors it top to bottom; rotation 0 keeps both orders.
   */
  lemma QuarterTurnsMirror(m: Mapping, a: real, b: real)
    requires a < b && m.t.scaleX > 0.0 && m.t.scaleY > 0.0
    ensures m.rotation == 90 ==> MapX(m, b) < MapX(m, a) && MapY(m, a) < MapY(m, b)
    ensures m.rotation == 270 ==> MapX(m, a) < MapX(m, b) && MapY(m, b) < MapY(m, a)
    ensures m.rotation == 0 ==> MapX(m, a) < MapX(m, b) && MapY(m, a) < MapY(m, b)
  {
    var ih, iw := m.imageHeight as real, m.imageWidth as real;
    StrictScale(ih - b, ih - a, m.t.scaleX);
    StrictScale(iw - b, iw - a, m.t.scaleY);
    StrictScale(a, b, m.t.scaleX);
    StrictScale(a, b, m.t.scaleY);
  }

  lemma StrictScale(a: real, b: real, s: real)
    requires a < b && s > 0.0
    ensures a * s < b * s
  {
  }

  /** The two calls that draw one word: its mapped box, and its text 5 pixels above the box. */
  function ElementPrims(m: Mapping, e: TextElement): seq<Primitive>
  {
    match MapRect(m, e.boundingBox)
    case None => []
    case Some(v) =>
      [ DrawRect(v.left as real, v.top as real, v.right as real, v.bottom as real, BoxPaint),
        DrawText(Literal(e.text), v.left as real, (v.top - 5) as real, TextPaint) ]
  }

  /** The scene `onDraw` paints for `elements`, in list order. */
  function ElementScene(m: Mapping, elements: seq<TextElement>): seq<Primitive>
  {
    if elements == [] then [] else ElementScene(m, elements[..|elements| - 1]) + ElementPrims(m, elements[|elements| - 1])
  }

  /** Every word with a box is drawn: its mapped box, and its text just above the box's left corner. */
  lemma {:induction false} ElementSceneDrawsBoxedWords(m: Mapping, elements: seq<TextElement>)
    ensures forall i :: 0 <= i < |elements| && elements[i].boundingBox.Some? ==>
      var v := MapRect(m, elements[i].boundingBox).value;
      && DrawRect(v.left as real, v.top as real, v.right as real, v.bottom as real, BoxPaint) in ElementScene(m, elements)
      && DrawText(Literal(elements[i].text), v.left as real, (v.top - 5) as real, TextPaint) in ElementScene(m, elements)
  {
    if elements != [] {
      var init := elements[..|elements| - 1];
      ElementSceneDrawsBoxedWords(m, init);
      forall i | 0 <= i < |elements| && elements[i].boundingBox.Some?
        ensures var v := MapRect(m, elements[i].boundingBox).value;
          && DrawRect(v.left as real, v.top as real, v.right as real, v.bottom as real, BoxPaint) in ElementScene(m, elements)
          && DrawText(Literal(elements[i].text), v.left as real, (v.top - 5) as real, TextPaint) in ElementScene(m, elements)
      {
        if i < |elements| - 1 {
          assert elements[i] == init[i];
        }
      }
    }
  }

  /** A word without a box draws nothing, and every call in the scene belongs to one of the words. */
  lemma {:induction false} ElementSceneHasOnlyWords(m: Mapping, elements: seq<TextElement>)
    ensures forall i :: 0 <= i < |elements| && elements[i].boundingBox.None? ==> ElementPrims(m, elements[i]) == []
    ensures forall q :: q in ElementScene(m, elements) ==>
      exists i :: 0 <= i < |elements| && q in ElementPrims(m, elements[i])
  {
    if elements != [] {
      var init := elements[..|elements| - 1];
      ElementSceneHasOnlyWords(m, init);
      forall q | q in ElementScene(m, elements)
        ensures exists i :: 0 <= i < |elements| && q in ElementPrims(m, elements[i])
      {
        if q in ElementScene(m, init) {
          var i :| 0 <= i < |init| && q in ElementPrims(m, init[i]);
          assert elements[i] == init[i];
        } else {
          assert q in ElementPrims(m, elements[|elements| - 1]);
        }
      }
    }
  }

  /** Drawing a longer list paints the shorter list's scene first, unchanged. */
  lemma {:induction false} ElementSceneAppend(m: Mapping, a: seq<TextElement>, b: seq<TextElement>)
    ensures ElementScene(m, a + b) == ElementScene(m, a) + ElementScene(m, b)
  {
    if b == [] {
      assert a + b == a;
    } else {
      var init := b[..|b| - 1];
      assert (a + b)[..|a + b| - 1] == a + init;
      assert (a + b)[|a + b| - 1] == b[|b| - 1];
      ElementSceneAppend(m, a, init);
    }
  }

  /** The transform after a recalculation: the letterbox, or the previous transform when a size is zero. */
  function Recalculated(previous: Transform, viewWidth: int, viewHeight: int, imageWidth: int, imageHeight: int, rotation: int): (t: Transform)
    ensures previous.scaleX == previous.scaleY ==> t.scaleX == t.scaleY
  {
    match Letterbox(viewWidth, viewHeight, imageWidth, imageHeight, rotation)
    case None => previous
    case Some(fit) => fit
  }

  class TextOverlay {
    /** The words to draw; `None` until the first `setElements`. */
    var elements: Option<seq<TextElement>>
    var imageWidth: int
    var imageHeight: int
    var rotation: int
    var scaleX: real
    var scaleY: real
    var translationX: real
    var translationY: real
    /** The view's size, `getWidth()` and `getHeight()`. */
    var width: int
    var height: int

    /** The scale is always uniform and the view size is never negative. */
    ghost predicate Valid()
      reads this
    {
      scaleX == scaleY && width >= 0 && height >= 0
    }

    function CurrentTransform(): Transform
      reads this
    {
      Transform(scaleX, scaleY, translationX, translationY)
    }

    function CurrentMapping(): Mapping
      reads this
    {
      Mapping(imageWidth, imageHeight, rotation, CurrentTransform())
    }

    /** A view before layout: no words, zero sizes, zero transform. */
    constructor ()
      ensures Valid()
      ensures elements == None && width == 0 && height == 0
      ensures imageWidth == 0 && imageHeight == 0 && rotation == 0
      ensures CurrentTransform() == Transform(0.0, 0.0, 0.0, 0.0)
    {
      elements := None;
      imageWidth, imageHeight, rotation := 0, 0, 0;
      scaleX, scaleY, translationX, translationY := 0.0, 0.0, 0.0, 0.0;
      width, height := 0, 0;
    }

    /** `calculateTransformationMatrix`: the letterbox for the current sizes, or no change when one is zero. */
    method CalculateTransformationMatrix()
      requires Valid()
      modifies this
      ensures Valid()
      ensures CurrentTransform() == Recalculated(old(CurrentTransform()), width, height, imageWidth, imageHeight, rotation)
      ensures elements == old(elements) && width == old(width) && height == old(height)
      ensures imageWidth == old(imageWidth) && imageHeight == old(imageHeight) && rotation == old(rotation)
    {
      var viewWidth, viewHeight := width, height;
      if viewWidth == 0 || viewHeight == 0 || imageWidth == 0 || imageHeight == 0 {
        return;
      }
      var swapDimensions := rotation == 90 || rotation == 270;
      var rotatedWidth := if swapDimensions then imageHeight else imageWidth;
      var rotatedHeight := if swapDimensions then imageWidth else imageHeight;
      var imageAspect := rotatedWidth as real / rotatedHeight as real;
      var viewAspect := viewWidth as real / viewHeight as real;
      var sx, sy, tx, ty;
      if imageAspect > viewAspect {
        sx := viewWidth as real / rotatedWidth as real;
        sy := sx;
        tx := 0.0;
        ty := (viewHeight as real - rotatedHeight as real * sy) / 2.0;
      } else {
        sy := viewHeight as real / rotatedHeight as real;
        sx := sy;
        ty := 0.0;
        tx := (viewWidth as real - rotatedWidth as real * sx) / 2.0;
      }
      assert Transform(sx, sy, tx, ty) == Fit(viewWidth, viewHeight, rotatedWidth, rotatedHeight);
      assert RotatedSize(imageWidth, imageHeight, rotation) == (rotatedWidth, rotatedHeight);
      scaleX, scaleY, translationX, translationY := sx, sy, tx, ty;
    }

    /** `setElements(elements, imageWidth, imageHeight, rotation)`: records all four and recalculates. */
    method SetElementsWithImage(newElements: seq<TextElement>, newImageWidth: int, newImageHeight: int, newRotation: int)
      requires Valid()
      modifies this
      ensures Valid()
      ensures elements == Some(newElements)
      ensures imageWidth == newImageWidth && imageHeight == newImageHeight && rotation == newRotation
      ensures CurrentTransform() == Recalculated(old(CurrentTransform()), width, height, newImageWidth, newImageHeight, newRotation)
      ensures width == old(width) && height == old(height)
    {
      elements := Some(newElements);
      imageWidth, imageHeight, rotation := newImageWidth, newImageHeight, newRotation;
      CalculateTransformationMatrix();
    }

    /** `setElements(elements)`: keeps the image size, recalculating only when it is positive. */
    method SetElements(newElements: seq<TextElement>)
      requires Valid()
      modifies this
      ensures Valid()
      ensures elements == Some(newElements)
      ensures imageWidth == old(imageWidth) && imageHeight == old(imageHeight) && rotation == old(rotation)
      ensures CurrentTransform() ==
        if imageWidth > 0 && imageHeight > 0
        then Recalculated(old(CurrentTransform()), width, height, imageWidth, imageHeight, rotation)
        else old(CurrentTransform())
      ensures width == old(width) && height == old(height)
    {
      elements := Some(newElements);
      if imageWidth > 0 && imageHeight > 0 {
        CalculateTransformationMatrix();
      }
    }

    /** `onSizeChanged`: the new view size, and a recalculation for it. */
    method OnSizeChanged(newWidth: int, newHeight: int)
      requires Valid() && newWidth >= 0 && newHeight >= 0
      modifies this
      ensures Valid()
      ensures width == newWidth && height == newHeight
      ensures CurrentTransform() == Recalculated(old(CurrentTransform()), newWidth, newHeight, imageWidth, imageHeight, rotation)
      ensures elements == old(elements)
      ensures imageWidth == old(imageWidth) && imageHeight == old(imageHeight) && rotation == old(rotation)
    {
      width, height := newWidth, newHeight;
      CalculateTransformationMatrix();
    }

    /**
     * `onDraw`: nothing without words or without a laid-out view; otherwise
     * a recalculation when a scale is still zero, then every boxed word in
     * list order.
     */
    method OnDraw() returns (painted: seq<Primitive>)
      requires Valid()
      modifies this
      ensures Valid()
      ensures elements == old(elements) && width == old(width) && height == old(height)
      ensures imageWidth == old(imageWidth) && imageHeight == old(imageHeight) && rotation == old(rotation)
      ensures elements.None? || elements.value == [] || width == 0 || height == 0 ==>
        painted == [] && CurrentTransform() == old(CurrentTransform())
      ensures !(elements.None? || elements.value == [] || width == 0 || height == 0) ==>
        && CurrentTransform() ==
             (if old(scaleX) == 0.0 || old(scaleY) == 0.0
              then Recalculated(old(CurrentTransform()), width, height, imageWidth, imageHeight, rotation)
              else old(CurrentTransform()))
        && painted == ElementScene(CurrentMapping(), elements.value)
    {
      if elements.None? || elements.value == [] || width == 0 || height == 0 {
        return [];
      }
      if scaleX == 0.0 || scaleY == 0.0 {
        CalculateTransformationMatrix();
      }
      var es := elements.value;
      var m := CurrentMapping();
      painted := [];
      var i := 0;
      while i < |es|
        invariant 0 <= i <= |es|
        invariant painted == ElementScene(m, es[..i])
      {
        assert es[..i + 1][..i] == es[..i];
        var originalRect := es[i].boundingBox;
        if originalRect.Some? {
          var viewRect := MapRect(m, originalRect).value;
          painted := painted + [ DrawRect(viewRect.left as real, viewRect.top as real, viewRect.right as real, viewRect.bottom as real, BoxPaint),
                                 DrawText(Literal(es[i].text), viewRect.left as real, (viewRect.top - 5) as real, TextPaint) ];
        }
        i := i + 1;
      }
      assert es[..i] == es;
    }
  }
}

=== FILE: vision.dfy ===
/**
 * The values that cross the boundary between the app and its collaborators:
 * camera frames, ML Kit results and the calls made on an Android `Canvas`.
 */
module Vision {
  import opened Nullable

  /** Identity of one camera frame (`ImageProxy`) handed to an analyzer or a capture callback. */
  type FrameId = nat

  /** A log of closed frames never names the same frame twice. */
  predicate NoRepeats(s: seq<FrameId>)
  {
    forall i, j :: 0 <= i < j < |s| ==> s[i] != s[j]
  }

  /** `android.graphics.Rect`: integer corners in image pixels. */
  datatype Rect = Rect(left: int, top: int, right: int, bottom: int)

  /** `android.graphics.PointF`. */
  datatype PointF = PointF(x: real, y: real)

  /** The metadata of an ML Kit `InputImage` built from a camera frame. */
  datatype InputImage = InputImage(width: int, height: int, rotationDegrees: int)

  /** The ten `FaceLandmark` types the face graphics look up. */
  datatype LandmarkType =
    | LeftEye | RightEye | LeftEar | RightEar | LeftCheek | RightCheek
    | NoseBase | MouthLeft | MouthRight | MouthBottom

  /** An ML Kit `Face`: a landmark or a probability that is absent reads as null. */
  datatype Face = Face(
    boundingBox: Rect,
    landmarks: map<LandmarkType, PointF>,
    smilingProbability: Option<real>,
    leftEyeOpenProbability: Option<real>,
    rightEyeOpenProbability: Option<real>)

  /** ML Kit text recognition: text blocks hold lines, lines hold elements (words). */
  datatype TextElement = TextElement(text: string, boundingBox: Option<Rect>)
  datatype TextLine = TextLine(elements: seq<TextElement>)
  datatype TextBlock = TextBlock(lines: seq<TextLine>)
  datatype RecognizedText = RecognizedText(text: string, textBlocks: seq<TextBlock>)

  /** Which `Paint` object a canvas call uses; colours and stroke widths are not modelled. */
  datatype Paint = BoxPaint | FacePositionPaint | LandmarkPaint | IdPaint | SmilePaint | EyePaint | TextPaint

  /** The text of a `drawText` call; the probability labels stand for their `String.format` output. */
  datatype Label =
    | Literal(text: string)
    | SmileLabel(probability: real)
    | LeftEyeLabel(probability: real)
    | RightEyeLabel(probability: real)

  /** One call on the canvas, in view coordinates. */
  datatype Primitive =
    | DrawRect(left: real, top: real, right: real, bottom: real, paint: Paint)
    | DrawCircle(cx: real, cy: real, radius: real, paint: Paint)
    | DrawArc(left: real, top: real, right: real, bottom: real, startAngle: real, sweepAngle: real, paint: Paint)
    | DrawOval(left: real, top: real, right: real, bottom: real, paint: Paint)
    | DrawText(caption: Label, x: real, y: real, paint: Paint)

  /** Number of calls in `ps` that satisfy `keep`. */
  function Count(ps: seq<Primitive>, keep: Primitive -> bool): (n: nat)
    ensures n <= |ps|
  {
    if ps == [] then 0 else Count(ps[..|ps| - 1], keep) + (if keep(ps[|ps| - 1]) then 1 else 0)
  }

  /** Counting distributes over the concatenation of two drawing sequences. */
  lemma {:induction false} CountAppend(a: seq<Primitive>, b: seq<Primitive>, keep: Primitive -> bool)
    ensures Count(a + b, keep) == Count(a, keep) + Count(b, keep)
  {
    if b != [] {
      assert (a + b)[..|a + b| - 1] == a + b[..|b| - 1];
      CountAppend(a, b[..|b| - 1], keep);
    } else {
      assert a + b == a;
    }
  }
}
